=== FILE: README.md ===
# Tetris game server: registry, difficulty, challenges and board mechanics in Dafny

This project models the sequential core of a multiplayer Tetris game with an
anti-cheating server. It has four parts.

- **The player registry and session state machine** (`server/gameManager.js`). This part covers:
  - binding a nickname to an email at registration and login;
  - starting a run with a server-generated piece sequence;
  - handing out pieces under the fall-time rules, including the violation and pause counters;
  - pausing and resuming;
  - ending a run and deleting finished players;
  - the structural board check and the best-score update on a state report;
  - the line-clear and current-piece checks;
  - the score board and a player's rank;
  - holding a player on a captcha challenge and releasing them;
  - the start-up projection of stored players.
- **The difficulty table** (`server/difficultyConfig.js`): the 12-tier lookup by score and the three-way classification of the time a piece was active.
- **The challenge store** (`server/captcha.js`): four-character codes that expire after two minutes, are compared without regard to letter case and are used once, plus the trigger probability.
- **The board mechanics of the client** (`server/public/tetris-game.js`). This part covers collision, movement, hard drop, clockwise rotation, writing a locked piece into the grid, the line-clear pass with its scoring, level and drop interval, and the 0/1 occupancy view.

## How the model is built

- The registry is one immutable value, `Players.Registry`. It holds:
  - the player map;
  - the insertion order of its keys, which is the order a JavaScript `Map` is iterated in (this decides "the first player with this nickname" and the order of equal scores on the board);
  - the nickname set;
  - the nickname-to-email map.
- Every server operation is a function from a registry to an `Outcome`: the new registry plus a `Result`. A thrown error is an `Err`. Some requests are rejected but still bump counters, so an `Err` may carry state changes; each contract says which.
- `Date.now()`, `Math.random()` and generated ids are parameters. Examples: `now`, the 50-piece and 20-piece batches, the captcha code's character draws, and the real-valued sample compared with the trigger probability.
- A fresh id is stated as "not yet a key".
- `speedViolations` is counted in half-units (`nat`), so its decay by 0.5 stays exact: one violation adds 2, and cheating is declared at 16.
- The trigger probability is counted in thousandths.
- The difficulty table's `interval * 1.5` is exact because every interval is even (`Difficulty.IntervalsEven`).
- JavaScript truthiness is written out where the code relies on it:
  - an empty bound email counts as no binding;
  - a stored level of 0 reads as 1;
  - a timestamp of 0 counts as absent;
  - a missing `pauseStartTime` reads as 0 in the resume arithmetic;
  - a missing cell of a short board row passes the cell check.
- `Players.Inv` is the registry invariant:
  - the insertion order lists exactly the keys, each once;
  - nicknames are unique among players;
  - each record carries its own id and a registered nickname;
  - a game in progress keeps more than ten unused pieces ahead of its cursor.

  Every operation on a live registry is proved to preserve it: registration, deletion, start, piece requests, pause and resume, end, state reports, piece checks, the captcha pair, and the two request handlers that chain a piece request or a state report with a possible challenge. The start-up restore is not covered, because stored records can already break it (two records with one nickname, say).

## Behaviour of the code as written

Several checks are weaker than a reader might expect. The model follows the code.

- A slow advance that is still under 30 s is classified as valid. It therefore decays the violation counter instead of raising it (`Session.SlowAdvanceAccepted`).
- The pause limit is strict: exactly 30000 ms is still normal (`Difficulty.FallTimeBoundaries`).
- `getNextPiece` consults neither `cheatingDetected` nor `waitingCaptcha` (`Challenge.WaitingDoesNotBlockPieces`).
- `updateGameState` never calls `validateLineClear`.
- `validateLineClear` throws a `TypeError` when the old board has fewer than twenty rows. `Validation.ValidateLineClear` answers `ClearFault` for that case; elsewhere the same error is `Err(TypeFault)`.
- The block-count comparison in `updateGameState` only logs. Its one effect is the failure of reading a board with fewer than twenty rows (`TypeFault`).
- The board check measures only the width of row 0.
- `resumeGame` checks only `isPaused`, not the status.
- Releasing a player from a challenge does not re-stamp the piece timer.
- Any live challenge in the store releases a waiting player, whoever it was issued to (`Challenge.AnyLiveChallengeReleases`).
- `endGame` does not check the status. `startGame` does not clear `endTime`, which is the finding below.
- `calculateLinesCleared` counts a full row as cleared only when the same height is empty in the new board. It is exactly the number of such rows, so it never exceeds the true number of full rows (`Validation.CalculateLinesCleared`). Nothing calls it.

## Model

| member | source | states |
|---|---|---|
| Difficulty.TableIsOrdered | server/difficultyConfig.js:20-33 | along the tier table thresholds and levels strictly increase and drop intervals never increase |
| Difficulty.DifficultyByScore | server/difficultyConfig.js:53-61 | the result is a table row; for a non-negative score it is the row with the greatest threshold not above the score, for a negative score it is row 0; its interval lies in [200, 1000] |
| Difficulty.DifficultyMonotone | server/difficultyConfig.js:53-61 | a higher score never gives a lower level nor a longer drop interval |
| Difficulty.ExpectedFallTime | server/difficultyConfig.js:64-73 | the ideal time is the tier interval, the maximum exceeds it by exactly half of it plus 2000 ms, and ideal < max < 30000 |
| Difficulty.ValidateFallTime | server/difficultyConfig.js:76-114 | a time is invalid exactly when it exceeds 30000 ms, and then the severity is high; it is low exactly when strictly between the maximum and 30000; otherwise none, so fast times are never rejected |
| Difficulty.FallTimeBoundaries | server/difficultyConfig.js:88-104 | a time equal to the maximum and a time of exactly 30000 ms are both normal; 30001 ms is invalid |
| Captcha.CodeFromDraws | server/captcha.js:15-24 | the code has one character per draw, each taken from the alphabet without look-alike characters |
| Captcha.CreateCaptcha | server/captcha.js:68-86 | the new challenge is stored under its id with expiry creation time + 120000 and a valid 4-character code; every other entry is kept unchanged exactly when it has not expired |
| Captcha.VerifyCaptcha | server/captcha.js:89-108 | unknown id: fails, store unchanged; expired: fails and the entry is removed; wrong code ignoring case: fails, entry kept; right code: succeeds and the entry is removed |
| Captcha.SingleUse | server/captcha.js:105-107 | after a successful answer the same challenge can never succeed again |
| Captcha.RetryAfterWrongCode | server/captcha.js:101-103 | after a wrong answer the right one still succeeds while the challenge lives |
| Captcha.CaseInsensitive | server/captcha.js:101 | two answers equal up to letter case get the same verdict and the same store |
| Captcha.CreatedThenVerified | server/captcha.js:68-108 | a challenge just created verifies with its own code at any time up to its expiry |
| Captcha.CleanupExpired | server/captcha.js:111-118 | the sweep keeps exactly the unexpired entries, each unchanged |
| Captcha.CleanupIdempotent | server/captcha.js:111-118 | sweeping twice at the same time is sweeping once |
| Captcha.CleanupShrinksOverTime | server/captcha.js:111-118 | a later sweep keeps a subset of what an earlier one keeps |
| Captcha.ScoreBonus | server/captcha.js:123 | the score part is capped at 0.1, is 0 below 500 points and reaches the cap from 2500 points |
| Captcha.ScoreBonusStep | server/captcha.js:123 | below the cap, 500 more points add exactly 0.02 |
| Captcha.TriggerProbability | server/captcha.js:121-129 | the probability is at most the base 0.005 plus 0.1 plus 0.05 per violation, and for a non-negative score at least the base plus 0.05 per violation |
| Captcha.TriggerProbabilityParts | server/captcha.js:123-129 | with no score and no violations the probability is the base 0.005; the score adds exactly its bonus; each whole violation adds exactly 0.05 |
| Captcha.ProbabilityMonotone | server/captcha.js:121-129 | the probability never decreases as score or violations grow |
| Captcha.ShouldTrigger | server/captcha.js:132 | a challenge is triggered exactly when the sample is below the probability |
| Captcha.TriggerMonotone | server/captcha.js:121-133 | a sample that triggers keeps triggering with a higher score or more violations |
| Captcha.TriggerExtremes | server/captcha.js:121-133 | every sample below 0.005 triggers, and 20 violations make every sample in [0, 1) trigger |
| Board.TypeIndex | server/public/tetris-game.js:1185 | the cell code of a locked piece is in 1..7 |
| Board.KindCodeRoundTrip | server/public/tetris-game.js:1040 | reading a piece kind back from its cell code gives the same kind |
| Board.ColorForType | server/public/tetris-game.js:1039-1042 | a code in 1..7 is drawn in the colour of its kind, any other code in white |
| Board.ColorRoundTrip | server/public/tetris-game.js:1039-1042 | a locked cell is drawn in the colour of the piece that filled it |
| Board.InitBoard | server/public/tetris-game.js:681-690 | the new field is 20 rows of 10 empty cells |
| Board.CheckCollision | server/public/tetris-game.js:1157-1180 | the scan reports a hit exactly when some filled shape cell lies left of column 0, right of column 9, below row 19, or on an occupied cell at a visible row |
| Board.MoveLeft | server/public/tetris-game.js:1108-1113 | the piece moves one column left unless that collides, in which case it stays; a free piece stays free |
| Board.MoveRight | server/public/tetris-game.js:1116-1121 | the piece moves one column right unless that collides, in which case it stays; a free piece stays free |
| Board.MoveDown | server/public/tetris-game.js:1124-1132 | either the piece moves one row down to a free position and true is returned, or it stays where it is, the step down collides, and false is returned |
| LineClear.Descend | server/public/tetris-game.js:1124-1132 | a free step moves the piece and leaves the field alone; a blocked step keeps the piece, writes it into the field and clears the full rows of the result, returning their number |
| Board.HardDrop | server/public/tetris-game.js:1150-1154 | the piece ends in the same column with the same shape at the first height from which the next step down collides, passing only free heights |
| LineClear.HardDropAndLock | server/public/tetris-game.js:1150-1154 | repeating the step until it locks writes the piece in at the rest position of `Board.HardDrop` and clears the full rows of the result |
| Board.HardDropStaysFree | server/public/tetris-game.js:1150-1154 | a hard drop from a free position ends in a free position |
| Board.Rotate | server/public/tetris-game.js:1135-1147 | the shape becomes its clockwise quarter turn unless that collides, in which case the piece is unchanged; a free piece stays free |
| Board.FullTurn | server/public/tetris-game.js:1137-1139 | four quarter turns give back the original shape |
| Board.LockPiece | server/public/tetris-game.js:1183-1198 | the field stays 20 by 10, exactly the cells under the piece at visible rows take its cell code, all others are unchanged |
| Board.LockFillsOnlyEmptyCells | server/public/tetris-game.js:1183-1198 | locking a free piece only writes to empty cells |
| Board.Occupancy | server/public/tetris-game.js:1513-1520 | the view is 20 by 10 and holds 0 exactly where the field is empty and 1 elsewhere |
| Board.OccupancyIdempotent | server/public/tetris-game.js:1513-1520 | projecting the view again changes nothing |
| LineClear.CountFull | server/public/tetris-game.js:1228-1237 | the full rows and the kept rows together account for every row |
| LineClear.CheckLines | server/public/tetris-game.js:1225-1237 | the pass returns the number of full rows, and the field becomes that many empty rows on top of the non-full rows in their original order |
| LineClear.ClearedBoardShape | server/public/tetris-game.js:1225-1237 | after the pass the field is 20 by 10, no row is full and the top rows, one per cleared line, are empty |
| LineClear.Points | server/public/tetris-game.js:1241 | a clear scores exactly when it removes a line, and every cleared line earns at least the 100 points of a single |
| LineClear.ClearingTogetherPays | server/public/tetris-game.js:1241 | clearing rows in one go is worth strictly more than clearing the same number of rows in two goes |
| LineClear.DropIntervalFor | server/public/tetris-game.js:1247 | the client's drop interval is never below 100 ms and never above 1000 ms from level 1 on |
| LineClear.DropIntervalSteps | server/public/tetris-game.js:1247 | level 1 drops every 1000 ms, each level up to 10 is 100 ms faster, and from level 10 on the interval is 100 ms |
| LineClear.DropIntervalMonotone | server/public/tetris-game.js:1247 | a higher level never has a longer drop interval |
| LineClear.ApplyClear | server/public/tetris-game.js:1239-1247 | no change without cleared lines; otherwise lines grow by n, the score by the points for n times the old level, the level follows the line count and the drop interval the level |
| LineClear.ClearNeverLowersLevel | server/public/tetris-game.js:1239-1247 | when level and lines agree, a clear never lowers the level nor lengthens the drop interval |
| Identity.ValidateNicknameEmail | server/gameManager.js:207-228 | a nickname not taken is new; a taken one with no bound email is unbound; with a bound email it matches exactly when that email is given and is a mismatch otherwise |
| Identity.FindByNickname | server/gameManager.js:264-272 | the player found carries the nickname; nothing is found only when no player carries it |
| Identity.Relogin | server/gameManager.js:278-289 | a returning player keeps id, nickname, best score and history, is registered with score 0 and no run times, and gets the email bound only when it had none |
| Identity.RegisterPlayer | server/gameManager.js:231-296 | a mismatched email fails with nothing changed; a new nickname adds exactly one player at the end of the order and binds its email; a known nickname with its bound email, or with none bound yet, succeeds and returns the first player carrying it, reset for a new run and bound to the email when none was bound, adding no player; a known nickname no player carries fails as a data anomaly; any failure changes nothing |
| Identity.RegisterPreservesInv | server/gameManager.js:231-296 | registration keeps the registry invariant |
| Identity.SecondLoginCreatesNoPlayer | server/gameManager.js:262-290 | logging in again with the same nickname and email returns the existing player and adds no id |
| Identity.DeletePlayer | server/gameManager.js:169-194 | unknown ids and unfinished players are refused with nothing changed; a finished player is removed with its nickname and email binding, and leaves the insertion order with every other id in place |
| Identity.DeleteKeepsOrder | server/gameManager.js:183 | deleting the player between two runs of ids leaves exactly the two runs, joined |
| Players.WithoutAppend | server/gameManager.js:183 | removing an id from two runs of ids removes it from each run, so the other ids keep their order |
| Players.WithoutGap | server/gameManager.js:183 | removing an id that occurs once between two runs of other ids joins the two runs |
| Players.WithoutAbsent | server/gameManager.js:183 | removing an id that does not occur leaves the order unchanged |
| Identity.DeletePreservesInv | server/gameManager.js:169-194 | deletion keeps the registry invariant |
| Identity.Restored | server/gameManager.js:88-99 | a stored player comes back registered with score 0, its stored email and history, and best score defaulting to 0 |
| Identity.RestoreFrom | server/gameManager.js:85-107 | restoring adds exactly the stored ids to the players and leaves the nickname set unchanged |
| Identity.RestoreFromEmailKeys | server/gameManager.js:102-105 | after restoring, a nickname is bound exactly when it was bound before or a stored record with an email carries it |
| Identity.LastBindingRestored | server/gameManager.js:102-105 | a stored record with an email that no later record with an email shares a nickname with leaves its email bound to that nickname |
| Identity.RestoreFromLastBinding | server/gameManager.js:102-105 | the email bound to a nickname is that of the last stored record with an email carrying it |
| Identity.RestoreFromKeepsBindings | server/gameManager.js:102-105 | a binding no stored record touches survives the restore unchanged |
| Identity.RestoreFromContents | server/gameManager.js:85-107 | after restoring, every stored id is present holding the last record with that id, and players not stored are untouched |
| Identity.Restore | server/gameManager.js:80-119 | after start-up the players are exactly the stored ids, all registered with score 0, each holding its last stored record; the nickname set is the stored list; a nickname is bound exactly when some stored record with an email carries it, to the email of the last such record; the insertion order lists every player once, in the order of each id's first stored record |
| Identity.FirstAt | server/gameManager.js:101 | the position of the first stored record with an id, or the length when no record has it |
| Identity.FirstAtSnoc | server/gameManager.js:101 | a further record moves no id's first position, and an id new with it has that record's position |
| Identity.ByFirstRecordStep | server/gameManager.js:101 | one `Map.set` of a stored record keeps the order listing exactly the stored ids, sorted by first record |
| Identity.RestoreFromOrder | server/gameManager.js:85-107 | restoring into an empty registry gives an order of exactly the stored ids, sorted by their first record |
| Identity.RestoreOrderMatches | server/gameManager.js:85-107 | the restored order lists exactly the players, each once, sorted by first record |
| Session.StartGame | server/gameManager.js:299-358 | the player is playing from now with score 0, clear counters, the 50 given pieces, cursor 0 and an empty field, identity and history kept; the first 10 pieces and tier 1 are returned |
| Session.StartPreservesInv | server/gameManager.js:299-358 | starting keeps the registry invariant |
| Session.ChargeFor | server/gameManager.js:415-451 | for a piece active over 30000 ms the violation count rises by one whole violation; it is speed cheating from eight violations on, and otherwise one more pause, which is cheating past ten pauses; any other time lets the count decay by one half towards 0 and touches nothing else |
| Session.Timing | server/gameManager.js:404-451 | a paused player's timer is re-stamped and charged nothing; otherwise the time since the piece started is charged as by the counter rule, and only the three counters and the timer change |
| Session.GetNextPiece | server/gameManager.js:394-402 | an unknown player fails with not-found and a player not playing with not-started, both leaving the registry as it was; for a playing player only that player's record changes, to what one advance makes of it, and the advance's answer is returned |
| Session.Advance | server/gameManager.js:404-482 | a rejected advance keeps cursor and sequence and marks cheating; an accepted one moves the cursor by one, re-stamps the timer, only appends to the sequence, 20 at a time, keeps the look-ahead window and answers with the pieces at the cursor and after it |
| Session.Proceed | server/gameManager.js:453-472 | after the timing checks, a failure leaves the record as it is; otherwise only cursor, sequence and timer change, the cursor by one and the sequence by at most one batch, and the window rule is kept |
| Session.NextPieceWithinWindow | server/gameManager.js:454-464 | in a consistent registry an accepted advance always returns both pieces and keeps the invariant |
| Session.EighthViolationIsFatal | server/gameManager.js:425-431 | the eighth violation declares cheating and rejects the advance |
| Session.AcceptedAdvanceDecays | server/gameManager.js:446-451 | an accepted advance takes half a violation off a positive count |
| Session.SlowAdvanceAccepted | server/difficultyConfig.js:86-95 | a slow advance under 30 s is accepted and never raises the violation count |
| Session.PausedRequestIsFree | server/gameManager.js:404-408 | while paused a request is charged no time and re-stamps the piece timer |
| Session.PauseGame | server/gameManager.js:746-770 | pausing succeeds exactly for a playing player not yet paused and records the pause start; failure changes nothing |
| Session.ResumeGame | server/gameManager.js:773-797 | resuming succeeds exactly for a paused player, whatever the status, moves the piece timer forward by the pause length and changes nothing else but the pause fields |
| Session.PauseExcludedFromTiming | server/gameManager.js:783-785 | after a pause and a resume, the time charged to the piece excludes the pause |
| Session.PauseResumePreserveInv | server/gameManager.js:746-797 | pausing and resuming keep the registry invariant |
| Session.EndGame | server/gameManager.js:715-743 | the player is finished at now, whatever the status, and exactly one run with its score, start, end and duration is appended to the history |
| Session.EndPreservesInv | server/gameManager.js:715-743 | ending keeps the registry invariant |
| Validation.ValidateBoardState | server/gameManager.js:669-689 | the board passes exactly when it has 20 rows, row 0 has 10 cells and every existing cell in the 20 by 10 window is 0..7; otherwise the size fault or the first bad cell in row order is named |
| Validation.InitBoardAccepted | server/gameManager.js:329-340 | the empty field a run starts on passes the board check |
| Validation.UpdateGameState | server/gameManager.js:573-666 | a bad board, when an old one is kept, marks cheating and fails; a score change over an old board of fewer than 20 rows fails with nothing changed; otherwise board, report and score are stored and the best score becomes the maximum of old best and new score |
| Validation.StoredBoardStaysSane | server/gameManager.js:584-638 | once a run has started, every board the server keeps has passed the check, so the short-board failure cannot happen |
| Validation.UpdateGameStatePreservesInv | server/gameManager.js:573-666 | a state report keeps the registry invariant |
| Validation.LinePoints | server/gameManager.js:558-559 | the server's table gives the client's points for up to four lines, and more count as 0 |
| Validation.LevelOf | server/gameManager.js:559 | the multiplier is the last reported level, or 1 when none or 0 was reported |
| Validation.ValidateLineClear | server/gameManager.js:526-570 | a clear is valid exactly when the player and both boards exist, the old board has 20 rows, the reported count is its number of full rows and the score rose by the points for it times the level |
| Validation.ClearGain | server/gameManager.js:558-560 | the score the client reaches after clearing up to four lines equals the score the server expects for that clear at the same level |
| Validation.HonestClearValidates | server/gameManager.js:526-570 | a clear scored by the client's own rules at the level the server saw is accepted |
| Validation.CalculateLinesCleared | server/gameManager.js:692-712 | no count without both boards, a failure on an old board of fewer than 20 rows, and otherwise exactly the number of full old rows whose height shows no block in the new board, which is never more than the full rows |
| Validation.CountVanishedIsRowCount | server/gameManager.js:699-709 | the loop's count equals the size of the set of rows it tests true, each row counted once |
| Validation.ValidateCurrentPiece | server/gameManager.js:489-523 | a known, non-cheating player who never started a game has no piece sequence, and indexing it fails with nothing changed; otherwise the piece is valid exactly when the player is known, not cheating, and the piece at the cursor has the given id and kind; a wrong id or kind marks cheating and nothing else |
| Validation.ValidateCurrentPiecePreservesInv | server/gameManager.js:489-523 | the piece check keeps the registry invariant |
| Validation.ServedPieceValidates | server/gameManager.js:489-523 | the piece an accepted advance hands out passes the cursor check |
| Ranking.DurationAsWritten | server/gameManager.js:806-813 | a duration exists exactly when a start is stamped and either an end is stamped or the player is playing |
| Ranking.Duration | server/gameManager.js:806-813 | for a playing player it is the time since the start; otherwise as written |
| Ranking.RunningDurationIsElapsed | server/gameManager.js:806-813 | a run started at a nonzero time reports the time since that start |
| Ranking.EndedDurationMatchesHistory | server/gameManager.js:806-813 | an ended run reports the duration it was archived with |
| Ranking.StaleEndTimeAfterRestart | server/gameManager.js:299-320 | a run started after an earlier one ended, without a new registration, reports a negative duration as written and the elapsed time when corrected |
| Ranking.GetPlayerInfo | server/gameManager.js:800-825 | a summary exists exactly for a known id and carries the player's identity, scores, status and duration; the duration is the one the source computes unless a game in progress still carries an end time |
| Ranking.DurationsDifferOnlyWhenStale | server/gameManager.js:806-813 | the corrected and as-written durations differ only for a game in progress that still carries an end time |
| Ranking.PlayingIdsAppend | server/gameManager.js:830-836 | the players in a game among two runs of ids are those of the first run followed by those of the second, so the list keeps registration order |
| Ranking.PlayingPlayers | server/gameManager.js:828-838 | the list has one summary per playing player in registration order; a summary of a player without an end time carries the duration the source computes |
| Ranking.PlayingPlayersComplete | server/gameManager.js:828-838 | in a consistent registry every playing player appears, only playing players appear, and no one appears twice |
| Ranking.EntriesOf | server/gameManager.js:847-885 | a player has a live-score line exactly when playing and a best-score line exactly when the best score is above 0 |
| Ranking.Collect | server/gameManager.js:842-886 | every line of every listed player is collected, and every collected line belongs to such a player |
| Ranking.CollectAppend | server/gameManager.js:842-886 | collecting over two runs of ids gives the lines of the first run followed by those of the second, so lines follow the order of the ids |
| Ranking.SortByScore | server/gameManager.js:890 | the sorted lines are a permutation of the input in non-increasing score order |
| Ranking.SortIsStable | server/gameManager.js:890 | lines with equal scores keep their original relative order |
| Ranking.Filter | server/gameManager.js:893-894 | a view keeps exactly the lines that satisfy its condition, and a descending list stays descending |
| Ranking.FilterAppend | server/gameManager.js:893-894 | filtering two runs of lines gives the filtered first run followed by the filtered second, so the kept lines keep their order |
| Ranking.Leaderboard | server/gameManager.js:841-897 | all three lists are sorted by score; the full list is a permutation of the collected lines and the views hold exactly its playing lines and its finished lines; lines with equal scores keep the order in which the players were registered |
| Ranking.LeaderboardContents | server/gameManager.js:841-897 | in a consistent registry the board holds a live line per playing player and a best line per player above 0, and nothing else |
| Ranking.ViewsOfBestLine | server/gameManager.js:893-894 | a registered player's best line is only in the full list, a playing player's best line is in both views |
| Ranking.FindNickname | server/gameManager.js:907 | the index is of the first line with the nickname, or -1 when none has it |
| Ranking.PlayerRank | server/gameManager.js:900-909 | an unknown id has no rank; otherwise the rank is one past the first line with the player's nickname, or 0 when there is none |
| Ranking.RankReflectsScore | server/gameManager.js:900-909 | every line above a player's rank scores at least as much as the player's line |
| Ranking.ListedPlayersAreRanked | server/gameManager.js:900-909 | a playing player, or one with a best score above 0, has a positive rank |
| Ranking.GameStateRecipients | server/gameManager.js:1037-1047 | a player's state goes to exactly the open admin connections that follow that player, once for each time the connection occurs |
| Ranking.GameStateRecipientsAppend | server/gameManager.js:1037-1047 | the recipients among two runs of connections are those of the first run followed by those of the second, so sends follow the connections' order |
| Challenge.ShouldTriggerFor | server/gameManager.js:925-937 | only a playing player is challenged, with the probability set by score and violations |
| Challenge.PauseForCaptcha | server/gameManager.js:940-971 | only a playing player gets a challenge; it is stored with a two-minute expiry and the player is marked as waiting on it |
| Challenge.VerifyCaptchaAndResume | server/gameManager.js:974-1019 | unknown and not-waiting players fail with nothing changed; a right answer stops the wait, marks the player verified and zeroes both counters; a wrong one changes no player field |
| Challenge.ChallengeRoundTrip | server/gameManager.js:940-1019 | a challenged player answering the code shown before expiry is released and the challenge is used up |
| Challenge.AnyLiveChallengeReleases | server/gameManager.js:974-988 | a live challenge issued to someone else also releases a waiting player |
| Challenge.ReleasedPlayerSurvivesNextAdvance | server/gameManager.js:990-995 | after a release the next advance is never rejected, however long it took |
| Challenge.WaitingDoesNotBlockPieces | server/gameManager.js:394-482 | waiting on a challenge does not change the answer to a piece request |
| Challenge.AdvanceIgnoresWaiting | server/gameManager.js:394-482 | the answer of one advance is the same whether or not the player is waiting on a challenge |
| Challenge.ServedReadsStream | server/gameManager.js:466-480 | the answer reads only the cursor, the sequence and the score |
| Challenge.ChallengePreservesInv | server/gameManager.js:940-1019 | challenging and releasing keep the registry invariant |
| Routes.MaybeChallenge | server/server.js:110-113 | a triggered draw leaves the player waiting on a stored challenge; otherwise nothing changes |
| Routes.NextPieceRoute | server/server.js:99-124 | the piece answer is the registry's and no player is added; a failed request or a draw that does not trigger changes nothing beyond the piece service; a triggered one marks only the requester as waiting on a challenge stored for them for two minutes; the store changes only for an accepted request whose player then waits |
| Routes.NextPieceRouteKeepsInv | server/server.js:99-124 | a piece request, challenged or not, keeps the registry invariant |
| Routes.UpdateRoute | server/server.js:127-153 | the answer is the registry's and no player is added; only a successful report with lines above 0 whose draw triggers challenges, marking only the reporter as waiting on a challenge stored for them; otherwise nothing changes beyond storing the report |
| Routes.UpdateRouteKeepsInv | server/server.js:127-153 | a state report, challenged or not, keeps the registry invariant |
| Routes.Disconnect | server/server.js:432-451 | a closing socket ends a game in progress and leaves everything else unchanged; afterwards the player is not playing |
| Routes.DisconnectArchivesOnce | server/server.js:437-447 | a disconnect during a game appends one run, and a second disconnect changes nothing |

## Findings

| source | as written | input that shows it | evidently intended | confidence | as-written member | corrected member |
|---|---|---|---|---|---|---|
| server/gameManager.js:806-813 | the duration uses a recorded end time whenever there is one, and `startGame` (lines 299-351) never clears `endTime`, so a run started again without a new registration reports the previous end minus the new start | run started at 500 and ended at 1000, next run started at 2000 through the client's restart path, summary asked for at 3000: duration -1000 | 1000, the time since the current run started | medium, not executed | Ranking.DurationAsWritten (shown by Ranking.StaleEndTimeAfterRestart) | Ranking.Duration |

The client's restart path (`handleStartGame`, `server/public/tetris-game.js:1494-1505`) calls the start route without registering again when it already has a player id. Registration is the only place that clears `endTime` (`server/gameManager.js:289`). The summaries and `getPlayingPlayers` use the corrected rule. `Ranking.DurationsDifferOnlyWhenStale` shows that the two rules agree everywhere else.

## Left out

- File persistence (`server/dataStorage.js`), the auto-save and duration-broadcast timers, the periodic captcha sweep timer, and WebSocket and admin fan-out are left out. So are `broadcastLeaderboard`'s rank messages and all console logging, including the block-count heuristic, which has no effect on state. They are I/O, clocks or transport. Only the recipient choice of `broadcastPlayerGameState` is kept.
- Random piece, id and code generation, and SVG image drawing, are left out: they are random or graphical. Their results are parameters.
- The DOM, canvas, keyboard, `fetch`, SDK bridge and the asynchronous server calls of `lockPiece` in the client are left out: they are I/O.
- HTTP-level argument checks (missing player id, missing state) in `server/server.js` are left out: they are transport.
- Boards are grids of integers. JSON values that are not integers (strings, `null`, fractions, rows that are not arrays) are not modelled, nor is a report without a score.
- Integers are unbounded. JavaScript numbers are doubles, so scores or times beyond 2^53 are not modelled.
- `startGame` also stores the first pieces and the drop interval inside the reported state. `Players.ClientState` keeps only the board, score, lines and level the server reads back.
- LineClear.ApplyClear: requires at most four lines at once. For more, the points table has no entry and the client's score becomes `NaN`, which integers cannot represent. A piece spans at most four rows, so the game loop never clears more.
- Board.LockPiece: requires every filled cell of the piece to lie between the walls and above the floor. This holds for every piece the game locks, because a locked piece does not collide (`Board.FreeIsInBounds`). Writes outside the grid, which JavaScript would turn into sparse arrays or a `TypeError`, are not modelled.
- Captcha.VerifyCaptcha: case is folded for ASCII letters only. `toLowerCase` also folds other scripts, but codes are drawn from an ASCII alphabet.
- Captcha.ShouldTrigger: the probability is exact in thousandths. The source adds floating-point numbers, which may differ in the last bit at a boundary sample.
- Captcha.CreateCaptcha: creation and expiry are computed from one `now`. The source reads the clock twice.
- Ranking.GetPlayerInfo: for a game in progress that still carries the end time of an earlier run, the duration is the time since the current start. The source reports the old end minus the new start (see Findings). Outside that case the two agree.
- Ranking.InfoOf: uses the corrected duration, as `Ranking.GetPlayerInfo` does.
- Ranking.PlayingPlayers: each summary carries the corrected duration. For a player still carrying the end time of an earlier run, this differs from the source's negative value (see Findings).
- Session.GetNextPiece: the re-stamp of a paused timer and the fall-time measurement use one `now`. The source reads the clock twice, a few microseconds apart.
- `getPlayerGameState`, `isNicknameAvailable` and the `lastLockedPiece` field are left out: they only read fields or are never read.

=== FILE: board.dfy ===
/** The client's playing field: a 20 by 10 grid of cell codes, the seven pieces, and the
    pure grid operations of the game loop (collision, movement, rotation, locking). */
module Board {
  import opened Common

  const Rows := 20
  const Cols := 10

  /** A grid of cell codes: 0 is empty, 1..7 is the kind of piece that filled the cell. */
  type Grid = seq<seq<int>>

  datatype Kind = I | O | T | S | Z | J | L

  function Shape(k: Kind): seq<seq<int>>
  {
    match k
    case I => [[1,1,1,1]]
    case O => [[1,1],[1,1]]
    case T => [[0,1,0],[1,1,1]]
    case S => [[0,1,1],[1,1,0]]
    case Z => [[1,1,0],[0,1,1]]
    case J => [[1,0,0],[1,1,1]]
    case L => [[0,0,1],[1,1,1]]
  }

  function Color(k: Kind): string
  {
    match k
    case I => "#00f0f0"
    case O => "#f0f000"
    case T => "#a000f0"
    case S => "#00f000"
    case Z => "#f00000"
    case J => "#0000f0"
    case L => "#f0a000"
  }

  /** The cell code a locked piece writes: its position in the order I, O, T, S, Z, J, L, plus 1. */
  function TypeIndex(k: Kind): (n: int)
    ensures 1 <= n <= 7
  {
    match k
    case I => 1
    case O => 2
    case T => 3
    case S => 4
    case Z => 5
    case J => 6
    case L => 7
  }

  /** The kind a cell code names, if any. */
  function KindOfCode(code: int): (k: Option<Kind>)
    ensures k.Some? <==> 1 <= code <= 7
    ensures k.Some? ==> TypeIndex(k.value) == code
  {
    if code == 1 then Some(I)
    else if code == 2 then Some(O)
    else if code == 3 then Some(T)
    else if code == 4 then Some(S)
    else if code == 5 then Some(Z)
    else if code == 6 then Some(J)
    else if code == 7 then Some(L)
    else None
  }

  lemma KindCodeRoundTrip(k: Kind)
    ensures KindOfCode(TypeIndex(k)) == Some(k)
  {
  }

  /** Drawing colour of a cell code; empty and unknown codes are drawn white. */
  function ColorForType(code: int): (c: string)
    ensures (1 <= code <= 7) ==> exists k :: TypeIndex(k) == code && c == Color(k)
    ensures !(1 <= code <= 7) ==> c == "#fff"
  {
    match KindOfCode(code)
    case Some(k) => Color(k)
    case None => "#fff"
  }

  lemma ColorRoundTrip(k: Kind)
    ensures ColorForType(TypeIndex(k)) == Color(k)
  {
    KindCodeRoundTrip(k);
  }

  ghost predicate WellFormed(b: Grid)
  {
    |b| == Rows && forall r :: 0 <= r < |b| ==> |b[r]| == Cols
  }

  function EmptyRow(): (row: seq<int>)
    ensures |row| == Cols && forall c :: 0 <= c < |row| ==> row[c] == 0
  {
    seq(Cols, _ => 0)
  }

  /** The empty field a new game starts on. */
  function InitBoard(): (b: Grid)
    ensures WellFormed(b)
    ensures forall r, c :: 0 <= r < Rows && 0 <= c < Cols ==> b[r][c] == 0
  {
    seq(Rows, _ => EmptyRow())
  }

  /** Score, cleared lines and level as `initBoard` resets them. */
  datatype Stats = Stats(score: int, lines: int, level: int)

  function InitStats(): Stats
  {
    Stats(0, 0, 1)
  }

  /** A falling piece: its kind, its current (possibly rotated) shape and the board position
      of the shape's top-left corner. */
  datatype Piece = Piece(kind: Kind, shape: seq<seq<int>>, x: int, y: int)

  /** Shape cell (i, j) of `p` is filled. */
  predicate Filled(p: Piece, i: int, j: int)
  {
    0 <= i < |p.shape| && 0 <= j < |p.shape[i]| && p.shape[i][j] != 0
  }

  /** A filled shape cell may not sit at board cell (r, c): outside the side walls, below the
      floor, or on an occupied cell. Rows above the top (r < 0) are free. */
  predicate Blocked(b: Grid, r: int, c: int)
    requires WellFormed(b)
  {
    c < 0 || c >= Cols || r >= Rows || (r >= 0 && b[r][c] != 0)
  }

  predicate Collides(b: Grid, p: Piece)
    requires WellFormed(b)
  {
    exists i, j | 0 <= i < |p.shape| && 0 <= j < |p.shape[i]| ::
      p.shape[i][j] != 0 && Blocked(b, p.y + i, p.x + j)
  }

  /** The collision test as the game loop runs it: every filled cell, row by row. */
  method CheckCollision(b: Grid, p: Piece) returns (hit: bool)
    requires WellFormed(b)
    ensures hit <==> Collides(b, p)
  {
    var i := 0;
    while i < |p.shape|
      invariant 0 <= i <= |p.shape|
      invariant forall i', j' :: 0 <= i' < i && 0 <= j' < |p.shape[i']| && p.shape[i'][j'] != 0 ==>
                  !Blocked(b, p.y + i', p.x + j')
    {
      var j := 0;
      while j < |p.shape[i]|
        invariant 0 <= j <= |p.shape[i]|
        invariant forall j' :: 0 <= j' < j && p.shape[i][j'] != 0 ==> !Blocked(b, p.y + i, p.x + j')
      {
        if p.shape[i][j] != 0 {
          var newX := p.x + j;
          var newY := p.y + i;
          if newX < 0 || newX >= Cols || newY >= Rows {
            return true;
          }
          if newY >= 0 && b[newY][newX] != 0 {
            return true;
          }
        }
        j := j + 1;
      }
      i := i + 1;
    }
    return false;
  }

  /** Every filled cell of `p` lies between the walls and above the floor, so writing the
      piece into the board stays inside the grid. */
  ghost predicate InBounds(p: Piece)
  {
    forall i, j :: Filled(p, i, j) ==> 0 <= p.x + j < Cols && p.y + i < Rows
  }

  lemma FreeIsInBounds(b: Grid, p: Piece)
    requires WellFormed(b) && !Collides(b, p)
    ensures InBounds(p)
  {
    forall i, j | Filled(p, i, j)
      ensures 0 <= p.x + j < Cols && p.y + i < Rows
    {
      assert !Blocked(b, p.y + i, p.x + j);
    }
  }

  function MoveLeft(b: Grid, p: Piece): (q: Piece)
    requires WellFormed(b)
    ensures q == p || (q == p.(x := p.x - 1) && !Collides(b, q))
    ensures Collides(b, p.(x := p.x - 1)) ==> q == p
    ensures !Collides(b, p) ==> !Collides(b, q)
  {
    var moved := p.(x := p.x - 1);
    if Collides(b, moved) then p else moved
  }

  function MoveRight(b: Grid, p: Piece): (q: Piece)
    requires WellFormed(b)
    ensures q == p || (q == p.(x := p.x + 1) && !Collides(b, q))
    ensures Collides(b, p.(x := p.x + 1)) ==> q == p
    ensures !Collides(b, p) ==> !Collides(b, q)
  {
    var moved := p.(x := p.x + 1);
    if Collides(b, moved) then p else moved
  }

  /** One step down. When the step is blocked the piece stays put and `moved` is false; the
      game then locks it (`LineClear.Descend`). */
  function MoveDown(b: Grid, p: Piece): (r: (Piece, bool))
    requires WellFormed(b)
    ensures r.1 ==> r.0 == p.(y := p.y + 1) && !Collides(b, r.0)
    ensures !r.1 ==> r.0 == p && Collides(b, p.(y := p.y + 1))
  {
    var moved := p.(y := p.y + 1);
    if Collides(b, moved) then (p, false) else (moved, true)
  }

  ghost predicate HasFilledCell(p: Piece)
  {
    exists i, j :: Filled(p, i, j)
  }

  /** A piece with a filled cell that does not collide is above the floor. */
  lemma FreeIsAboveFloor(b: Grid, p: Piece)
    requires WellFormed(b) && HasFilledCell(p) && !Collides(b, p)
    ensures p.y < Rows
  {
    var i, j :| Filled(p, i, j);
    assert !Blocked(b, p.y + i, p.x + j);
  }

  /** The resting position a hard drop reaches: moving down until the next step is blocked. */
  function HardDrop(b: Grid, p: Piece): (q: Piece)
    requires WellFormed(b) && HasFilledCell(p)
    ensures q.kind == p.kind && q.shape == p.shape && q.x == p.x && q.y >= p.y
    ensures Collides(b, q.(y := q.y + 1))
    ensures forall k :: p.y < k <= q.y ==> !Collides(b, p.(y := k))
    decreases Rows - p.y
  {
    var (next, moved) := MoveDown(b, p);
    if !moved then p
    else
      assert HasFilledCell(next) by {
        var i, j :| Filled(p, i, j);
        assert Filled(next, i, j);
      }
      FreeIsAboveFloor(b, next);
      var q := HardDrop(b, next);
      assert forall k :: next.y < k <= q.y ==> next.(y := k) == p.(y := k);
      q
  }

  /** A hard drop from a free position ends in a free position. */
  lemma HardDropStaysFree(b: Grid, p: Piece)
    requires WellFormed(b) && HasFilledCell(p) && !Collides(b, p)
    ensures !Collides(b, HardDrop(b, p))
  {
    var q := HardDrop(b, p);
    if q.y > p.y {
      assert q == p.(y := q.y);
    }
  }

  /** Every row of `s` has the length of its first row. */
  ghost predicate Rectangular(s: seq<seq<int>>)
  {
    |s| > 0 && forall r :: 0 <= r < |s| ==> |s[r]| == |s[0]|
  }

  /** Clockwise quarter turn: column i read from the bottom up becomes row i. */
  function Rotated(s: seq<seq<int>>): (t: seq<seq<int>>)
    requires Rectangular(s)
    ensures |t| == |s[0]|
    ensures forall i :: 0 <= i < |t| ==> |t[i]| == |s|
    ensures |s[0]| > 0 ==> Rectangular(t)
  {
    seq(|s[0]|, i requires 0 <= i < |s[0]| =>
      seq(|s|, j requires 0 <= j < |s| => s[|s| - 1 - j][i]))
  }

  /** Two quarter turns read the shape backwards in both directions. */
  lemma HalfTurn(s: seq<seq<int>>)
    requires Rectangular(s) && |s[0]| > 0
    ensures |Rotated(Rotated(s))| == |s|
    ensures forall i, j :: 0 <= i < |s| && 0 <= j < |s[0]| ==>
              |Rotated(Rotated(s))[i]| == |s[0]| &&
              Rotated(Rotated(s))[i][j] == s[|s| - 1 - i][|s[0]| - 1 - j]
  {
  }

  /** Four quarter turns give back the original shape. */
  lemma FullTurn(s: seq<seq<int>>)
    requires Rectangular(s) && |s[0]| > 0
    ensures Rotated(Rotated(Rotated(Rotated(s)))) == s
  {
    var h := Rotated(Rotated(s));
    HalfTurn(s);
    assert Rectangular(h) && |h[0]| > 0;
    HalfTurn(h);
    var f := Rotated(Rotated(h));
    assert |f| == |s|;
    forall i | 0 <= i < |s|
      ensures f[i] == s[i]
    {
      assert |f[i]| == |s[i]|;
      forall j | 0 <= j < |s[i]|
        ensures f[i][j] == s[i][j]
      {
        assert f[i][j] == h[|s| - 1 - i][|s[0]| - 1 - j];
      }
    }
  }

  /** The rotate control: turn clockwise unless the turned shape would collide. */
  function Rotate(b: Grid, p: Piece): (q: Piece)
    requires WellFormed(b) && Rectangular(p.shape)
    ensures q.kind == p.kind && q.x == p.x && q.y == p.y
    ensures q.shape == p.shape || (q.shape == Rotated(p.shape) && !Collides(b, q))
    ensures Collides(b, p.(shape := Rotated(p.shape))) ==> q == p
    ensures !Collides(b, p) ==> !Collides(b, q)
  {
    var turned := p.(shape := Rotated(p.shape));
    if Collides(b, turned) then p else turned
  }

  /** Board cell (r, c) lies under a filled cell of `p` and inside the visible rows. */
  predicate Covers(p: Piece, r: int, c: int)
  {
    r >= 0 && Filled(p, r - p.y, c - p.x)
  }

  /** `g` is `b` with each filled cell of `p` at a visible row holding the piece's cell code. */
  ghost predicate LockedBy(b: Grid, p: Piece, g: Grid)
    requires WellFormed(b)
  {
    && WellFormed(g)
    && forall r, c :: 0 <= r < Rows && 0 <= c < Cols ==>
         g[r][c] == (if Covers(p, r, c) then TypeIndex(p.kind) else b[r][c])
  }

  /** The board write of locking: each filled cell of the piece at a visible row takes the
      piece's cell code. Shape cells above the top are dropped. */
  method LockPiece(b: Grid, p: Piece) returns (b': Grid)
    requires WellFormed(b) && InBounds(p)
    ensures WellFormed(b')
    ensures LockedBy(b, p, b')
  {
    var code := TypeIndex(p.kind);
    b' := b;
    var i := 0;
    while i < |p.shape|
      invariant 0 <= i <= |p.shape|
      invariant WellFormed(b')
      invariant forall r, c :: 0 <= r < Rows && 0 <= c < Cols ==>
                  b'[r][c] == (if Covers(p, r, c) && r - p.y < i then code else b[r][c])
    {
      var j := 0;
      while j < |p.shape[i]|
        invariant 0 <= j <= |p.shape[i]|
        invariant WellFormed(b')
        invariant forall r, c :: 0 <= r < Rows && 0 <= c < Cols ==>
                    b'[r][c] == (if Covers(p, r, c) && (r - p.y < i || (r - p.y == i && c - p.x < j))
                                 then code else b[r][c])
      {
        if p.shape[i][j] != 0 {
          var boardY := p.y + i;
          var boardX := p.x + j;
          if boardY >= 0 {
            assert Filled(p, i, j);
            b' := b'[boardY := b'[boardY][boardX := code]];
          }
        }
        j := j + 1;
      }
      i := i + 1;
    }
  }

  /** Locking a piece that does not collide only fills empty cells. */
  lemma LockFillsOnlyEmptyCells(b: Grid, p: Piece, r: int, c: int)
    requires WellFormed(b) && !Collides(b, p)
    requires 0 <= r < Rows && 0 <= c < Cols && Covers(p, r, c)
    ensures b[r][c] == 0
  {
    assert !Blocked(b, p.y + (r - p.y), p.x + (c - p.x));
  }

  /** The occupancy view handed to automated players: 0 for empty, 1 for filled. */
  function Occupancy(b: Grid): (o: Grid)
    requires WellFormed(b)
    ensures WellFormed(o)
    ensures forall r, c :: 0 <= r < Rows && 0 <= c < Cols ==>
              (o[r][c] == 0 <==> b[r][c] == 0) && 0 <= o[r][c] <= 1
  {
    seq(Rows, r requires 0 <= r < Rows =>
      seq(Cols, c requires 0 <= c < Cols => if b[r][c] == 0 then 0 else 1))
  }

  /** Projecting twice is projecting once. */
  lemma OccupancyIdempotent(b: Grid)
    requires WellFormed(b)
    ensures Occupancy(Occupancy(b)) == Occupancy(b)
  {
    var o := Occupancy(b);
    var oo := Occupancy(o);
    forall r | 0 <= r < Rows
      ensures oo[r] == o[r]
    {
      assert forall c :: 0 <= c < Cols ==> oo[r][c] == o[r][c];
    }
  }
}

=== FILE: captcha.dfy ===
/** The challenge store: short codes that expire, are checked without regard to letter
    case, and can be used once. */
module Captcha {

  const CodeLength := 4
  /** Lifetime of a challenge in milliseconds (two minutes). */
  const ExpirationTime := 120000
  /** Base trigger probability 0.005, in thousandths. */
  const BaseProbability := 5
  /** The alphabet codes are drawn from; it leaves out look-alike characters. */
  const Chars := "ABCDEFGHJKLMNPQRSTUVWXYZabcdefghjkmnpqrstuvwxyz23456789"

  datatype Challenge = Challenge(id: string, code: string, playerId: string,
                                 createdAt: int, expiresAt: int)

  type Store = map<string, Challenge>

  predicate ValidCode(code: string)
  {
    |code| == CodeLength && forall i :: 0 <= i < |code| ==> code[i] in Chars
  }

  /** Builds a code from random draws, each draw being an index into `Chars`. */
  function CodeFromDraws(draws: seq<nat>): (code: string)
    requires forall i :: 0 <= i < |draws| ==> draws[i] < |Chars|
    ensures |code| == |draws|
    ensures forall i :: 0 <= i < |code| ==> code[i] in Chars
  {
    seq(|draws|, i requires 0 <= i < |draws| => Chars[draws[i]])
  }

  predicate Expired(c: Challenge, now: int)
  {
    now > c.expiresAt
  }

  /** The periodic sweep: drops exactly the expired challenges. */
  function CleanupExpired(store: Store, now: int): (r: Store)
    ensures forall id :: id in r <==> id in store && !Expired(store[id], now)
    ensures forall id :: id in r ==> r[id] == store[id]
  {
    map id | id in store && !Expired(store[id], now) :: store[id]
  }

  lemma CleanupIdempotent(store: Store, now: int)
    ensures CleanupExpired(CleanupExpired(store, now), now) == CleanupExpired(store, now)
  {
  }

  /** A later sweep keeps no more than an earlier one. */
  lemma CleanupShrinksOverTime(store: Store, t1: int, t2: int)
    requires t1 <= t2
    ensures CleanupExpired(store, t2).Keys <= CleanupExpired(store, t1).Keys
  {
  }

  /** Stores a fresh challenge under `id`, then sweeps expired ones. */
  function CreateCaptcha(store: Store, id: string, playerId: string, draws: seq<nat>, now: int)
    : (r: (Store, Challenge))
    requires |draws| == CodeLength
    requires forall i :: 0 <= i < |draws| ==> draws[i] < |Chars|
    ensures r.1.id == id && r.1.playerId == playerId && r.1.createdAt == now
    ensures r.1.expiresAt == r.1.createdAt + ExpirationTime
    ensures ValidCode(r.1.code)
    ensures id in r.0 && r.0[id] == r.1
    ensures forall k :: k in r.0 && k != id ==> k in store && r.0[k] == store[k]
    ensures forall k :: k in store && k != id && !Expired(store[k], now) ==> k in r.0
    ensures forall k :: k in store && k != id && Expired(store[k], now) ==> k !in r.0
  {
    var c := Challenge(id, CodeFromDraws(draws), playerId, now, now + ExpirationTime);
    (CleanupExpired(store[id := c], now), c)
  }

  /** ASCII lower-casing of one character. */
  function LowerChar(ch: char): (r: char)
    ensures 'A' <= ch <= 'Z' ==> 'a' <= r <= 'z'
    ensures !('A' <= ch <= 'Z') ==> r == ch
  {
    if 'A' <= ch <= 'Z' then (ch as int + 32) as char else ch
  }

  function Lower(s: string): (r: string)
    ensures |r| == |s|
    ensures forall i :: 0 <= i < |s| ==> r[i] == LowerChar(s[i])
  {
    seq(|s|, i requires 0 <= i < |s| => LowerChar(s[i]))
  }

  predicate SameIgnoringCase(a: string, b: string)
  {
    Lower(a) == Lower(b)
  }

  lemma LowerIdempotent(s: string)
    ensures Lower(Lower(s)) == Lower(s)
  {
  }

  /** What a verification attempt found; only `Passed` is a success. */
  datatype Finding = Passed | Missing | ExpiredCode | WrongCode

  datatype Verdict = Verdict(store: Store, finding: Finding) {
    predicate Valid() { finding.Passed? }
  }

  /** Checks `input` against challenge `id` at time `now`. */
  function VerifyCaptcha(store: Store, id: string, input: string, now: int): (v: Verdict)
    ensures id !in store ==> v.finding == Missing && v.store == store
    ensures id in store && Expired(store[id], now) ==>
              v.finding == ExpiredCode && v.store == store - {id}
    ensures id in store && !Expired(store[id], now) && !SameIgnoringCase(input, store[id].code) ==>
              v.finding == WrongCode && v.store == store
    ensures v.Valid() <==> id in store && !Expired(store[id], now) && SameIgnoringCase(input, store[id].code)
    ensures v.Valid() ==> v.store == store - {id}
  {
    if id !in store then Verdict(store, Missing)
    else if now > store[id].expiresAt then Verdict(store - {id}, ExpiredCode)
    else if Lower(input) != Lower(store[id].code) then Verdict(store, WrongCode)
    else Verdict(store - {id}, Passed)
  }

  /** A challenge answered correctly cannot be answered again. */
  lemma SingleUse(store: Store, id: string, input: string, now: int, again: string, later: int)
    requires VerifyCaptcha(store, id, input, now).Valid()
    ensures !VerifyCaptcha(VerifyCaptcha(store, id, input, now).store, id, again, later).Valid()
  {
  }

  /** A wrong answer leaves the challenge in place, so the right one still succeeds. */
  lemma RetryAfterWrongCode(store: Store, id: string, wrong: string, now: int, later: int)
    requires id in store && !Expired(store[id], later) && now <= later
    requires !SameIgnoringCase(wrong, store[id].code)
    ensures VerifyCaptcha(VerifyCaptcha(store, id, wrong, now).store, id, store[id].code, later).Valid()
  {
  }

  /** The verdict depends on the answer only through its lower-cased form. */
  lemma CaseInsensitive(store: Store, id: string, a: string, b: string, now: int)
    requires Lower(a) == Lower(b)
    ensures VerifyCaptcha(store, id, a, now) == VerifyCaptcha(store, id, b, now)
  {
  }

  /** A challenge created now verifies with its own code until it expires. */
  lemma CreatedThenVerified(store: Store, id: string, playerId: string, draws: seq<nat>,
                            now: int, later: int)
    requires |draws| == CodeLength
    requires forall i :: 0 <= i < |draws| ==> draws[i] < |Chars|
    requires now <= later <= now + ExpirationTime
    ensures var (s, c) := CreateCaptcha(store, id, playerId, draws, now);
            VerifyCaptcha(s, id, c.code, later).Valid()
  {
  }

  /** The score part of the trigger probability, in thousandths: 0.02 per 500 points,
      at most 0.1. Division by a positive constant floors, as `Math.floor` does. */
  function ScoreBonus(score: int): (b: int)
    ensures b <= 100
    ensures score >= 0 ==> b >= 0
    ensures 0 <= score < 500 ==> b == 0
    ensures score >= 2500 ==> b == 100
  {
    var steps := score / 500;
    if steps * 20 < 100 then steps * 20 else 100
  }

  /** Trigger probability in thousandths; `violationHalves` counts violations in halves. */
  function TriggerProbability(score: int, violationHalves: nat): (p: int)
    ensures p <= BaseProbability + 100 + 25 * violationHalves
    ensures score >= 0 ==> p >= BaseProbability + 25 * violationHalves
  {
    BaseProbability + ScoreBonus(score) + violationHalves * 25
  }

  /** Below the cap, 500 more points add exactly 0.02. */
  lemma ScoreBonusStep(score: int)
    requires ScoreBonus(score) < 100
    ensures ScoreBonus(score + 500) == ScoreBonus(score) + 20
  {
    assert (score + 500) / 500 == score / 500 + 1;
  }

  /** The probability is the base 0.005, plus the score bonus, plus 0.05 per whole violation. */
  lemma TriggerProbabilityParts(score: int, violationHalves: nat)
    ensures TriggerProbability(0, 0) == BaseProbability
    ensures TriggerProbability(score, violationHalves) ==
            TriggerProbability(0, violationHalves) + ScoreBonus(score)
    ensures TriggerProbability(score, violationHalves + 2) ==
            TriggerProbability(score, violationHalves) + 50
  {
    assert ScoreBonus(0) == 0;
  }

  lemma ScoreBonusMonotone(s1: int, s2: int)
    requires s1 <= s2
    ensures ScoreBonus(s1) <= ScoreBonus(s2)
  {
    assert s1 / 500 <= s2 / 500;
  }

  lemma ProbabilityMonotone(s1: int, s2: int, v1: nat, v2: nat)
    requires s1 <= s2 && v1 <= v2
    ensures TriggerProbability(s1, v1) <= TriggerProbability(s2, v2)
  {
    ScoreBonusMonotone(s1, s2);
  }

  /** Triggers when the uniform draw `sample` in [0, 1) falls below the probability. */
  function ShouldTrigger(score: int, violationHalves: nat, sample: real): (t: bool)
    ensures t <==> sample * 1000.0 < TriggerProbability(score, violationHalves) as real
  {
    sample < (TriggerProbability(score, violationHalves) as real) / 1000.0
  }

  /** Anything that triggers keeps triggering with a higher score or more violations. */
  lemma TriggerMonotone(s1: int, s2: int, v1: nat, v2: nat, sample: real)
    requires s1 <= s2 && v1 <= v2
    requires ShouldTrigger(s1, v1, sample)
    ensures ShouldTrigger(s2, v2, sample)
  {
    ProbabilityMonotone(s1, s2, v1, v2);
  }

  /** The base probability alone triggers every draw below 0.005 for a non-negative score,
      and 20 whole violations make every draw in [0, 1) trigger. */
  lemma TriggerExtremes(score: int, violationHalves: nat, sample: real)
    requires score >= 0 && 0.0 <= sample < 1.0
    ensures sample < 0.005 ==> ShouldTrigger(score, violationHalves, sample)
    ensures violationHalves >= 40 ==> ShouldTrigger(score, violationHalves, sample)
  {
  }
}

=== FILE: challenge.dfy ===
/** The interplay of the registry with the challenge store: deciding to challenge a player,
    holding the player until the challenge is answered, and releasing them. */
module Challenge {
  import opened Common
  import opened Players
  import Captcha
  import Session
  import Difficulty

  /** The two pieces of server state a challenge touches. */
  datatype World = World(reg: Registry, store: Captcha.Store)

  /** Why releasing a player failed: a registry error, or the store's verdict on the answer. */
  datatype Failure = PlayerError(error: Error) | Rejected(finding: Captcha.Finding)

  /** `shouldTriggerCaptcha` on the registry: only a player in a game is ever challenged, with
      the probability set by that player's score and violation count. */
  function ShouldTriggerFor(reg: Registry, id: PlayerId, sample: real): (t: bool)
    ensures t ==> id in reg.players && reg.players[id].status == Playing
    ensures id in reg.players && reg.players[id].status == Playing ==>
              (t <==> sample < Captcha.TriggerProbability(reg.players[id].currentScore,
                                                          reg.players[id].speedViolations) as real / 1000.0)
  {
    id in reg.players && reg.players[id].status == Playing &&
    Captcha.ShouldTrigger(reg.players[id].currentScore, reg.players[id].speedViolations, sample)
  }

  /** `pauseForCaptcha`: for a player in a game, issues challenge `challengeId` (code drawn by
      `draws`) and marks the player as waiting on it; anyone else gets nothing. */
  function PauseForCaptcha(w: World, id: PlayerId, challengeId: string, draws: seq<nat>, now: int)
    : (r: (World, Option<Captcha.Challenge>))
    requires |draws| == Captcha.CodeLength
    requires forall i :: 0 <= i < |draws| ==> draws[i] < |Captcha.Chars|
    ensures r.0.reg.players.Keys == w.reg.players.Keys
    ensures r.1.None? <==> !(id in w.reg.players && w.reg.players[id].status == Playing)
    ensures r.1.None? ==> r.0 == w
    ensures r.1.Some? ==>
              var c := r.1.value;
              var p := w.reg.players[id];
              && c.id == challengeId && c.playerId == id && c.expiresAt == now + Captcha.ExpirationTime
              && challengeId in r.0.store && r.0.store[challengeId] == c
              && r.0.reg == Update(w.reg, id, p.(waitingCaptcha := true, captchaId := Some(challengeId)))
  {
    if id !in w.reg.players || w.reg.players[id].status != Playing then (w, None)
    else
      var (store, c) := Captcha.CreateCaptcha(w.store, challengeId, id, draws, now);
      var p := w.reg.players[id];
      (World(Update(w.reg, id, p.(waitingCaptcha := true, captchaId := Some(challengeId))), store), Some(c))
  }

  /** `verifyCaptchaAndResume`: a waiting player who answers challenge `challengeId` correctly
      stops waiting and has both violation counters reset; a wrong answer changes no player
      field, though the store still drops an expired challenge. The piece timer is not
      touched, and the challenge answered need not be the one the player was given. */
  function VerifyCaptchaAndResume(w: World, id: PlayerId, challengeId: string, input: string, now: int)
    : (r: (World, Result<(), Failure>))
    ensures id !in w.reg.players ==> r == (w, Err(PlayerError(NotFound)))
    ensures id in w.reg.players && !w.reg.players[id].waitingCaptcha ==> r == (w, Err(PlayerError(NotWaiting)))
    ensures id in w.reg.players && w.reg.players[id].waitingCaptcha ==>
              var v := Captcha.VerifyCaptcha(w.store, challengeId, input, now);
              var p := w.reg.players[id];
              && r.0.store == v.store
              && (r.1.Ok? <==> v.Valid())
              && (r.1.Err? ==> r.0.reg == w.reg && r.1 == Err(Rejected(v.finding)))
              && (r.1.Ok? ==> r.0.reg == Update(w.reg, id,
                                p.(waitingCaptcha := false, captchaId := None, captchaVerified := true,
                                   speedViolations := 0, pauseCount := 0)))
  {
    if id !in w.reg.players then (w, Err(PlayerError(NotFound)))
    else
      var p := w.reg.players[id];
      if !p.waitingCaptcha then (w, Err(PlayerError(NotWaiting)))
      else
        var v := Captcha.VerifyCaptcha(w.store, challengeId, input, now);
        if v.Valid() then
          var q := p.(waitingCaptcha := false, captchaId := None, captchaVerified := true,
                      speedViolations := 0, pauseCount := 0);
          (World(Update(w.reg, id, q), v.store), Ok(()))
        else (World(w.reg, v.store), Err(Rejected(v.finding)))
  }

  /** A challenged player who answers with the code shown before it expires is released. */
  lemma ChallengeRoundTrip(w: World, id: PlayerId, challengeId: string, draws: seq<nat>,
                           now: int, later: int)
    requires |draws| == Captcha.CodeLength
    requires forall i :: 0 <= i < |draws| ==> draws[i] < |Captcha.Chars|
    requires id in w.reg.players && w.reg.players[id].status == Playing
    requires now <= later <= now + Captcha.ExpirationTime
    ensures var (w1, c) := PauseForCaptcha(w, id, challengeId, draws, now);
            var (w2, res) := VerifyCaptchaAndResume(w1, id, challengeId, c.value.code, later);
            && w1.reg.players[id].waitingCaptcha
            && res.Ok?
            && !w2.reg.players[id].waitingCaptcha && w2.reg.players[id].captchaId.None?
            && challengeId !in w2.store
  {
    var (w1, c) := PauseForCaptcha(w, id, challengeId, draws, now);
    Captcha.CreatedThenVerified(w.store, challengeId, id, draws, now, later);
  }

  /** Any live challenge in the store releases a waiting player, not only the one issued to
      that player, since neither the challenge's owner nor the player's `captchaId` is checked. */
  lemma AnyLiveChallengeReleases(w: World, id: PlayerId, other: string, now: int)
    requires id in w.reg.players && w.reg.players[id].waitingCaptcha
    requires other in w.store && w.store[other].playerId != id
    requires !Captcha.Expired(w.store[other], now)
    ensures VerifyCaptchaAndResume(w, id, other, w.store[other].code, now).1.Ok?
  {
  }

  /** After a release both counters are clear, so the next rejected advance is not fatal. */
  lemma ReleasedPlayerSurvivesNextAdvance(w: World, id: PlayerId, challengeId: string, input: string,
                                          now: int, later: int)
    requires VerifyCaptchaAndResume(w, id, challengeId, input, now).1.Ok?
    ensures var p := VerifyCaptchaAndResume(w, id, challengeId, input, now).0.reg.players[id];
            Session.Timing(p, later).1.None?
  {
  }

  /** Waiting on a challenge does not stop the piece stream: the answer is the same with the
      flag set or clear. */
  lemma WaitingDoesNotBlockPieces(reg: Registry, id: PlayerId, now: int, refill: seq<ServerPiece>)
    requires id in reg.players && |refill| == Session.RefillBatch
    ensures var waiting := Update(reg, id, reg.players[id].(waitingCaptcha := true));
            Session.GetNextPiece(waiting, id, now, refill).result ==
            Session.GetNextPiece(reg, id, now, refill).result
  {
    var p := reg.players[id];
    var w := p.(waitingCaptcha := true);
    var waiting := Update(reg, id, w);
    assert waiting.players[id] == w;
    AdvanceIgnoresWaiting(p, now, refill);
    if p.status == Playing {
      assert Session.GetNextPiece(waiting, id, now, refill).result == Session.Advance(w, now, refill).1;
      assert Session.GetNextPiece(reg, id, now, refill).result == Session.Advance(p, now, refill).1;
    }
  }

  lemma AdvanceIgnoresWaiting(p: Player, now: int, refill: seq<ServerPiece>)
    requires |refill| == Session.RefillBatch
    ensures Session.Advance(p.(waitingCaptcha := true), now, refill).1 == Session.Advance(p, now, refill).1
  {
    TimingIgnoresWaiting(p, now);
    var t := Session.Timing(p, now);
    ProceedIgnoresWaiting(t.0, t.1, now, refill);
  }

  lemma ProceedIgnoresWaiting(p1: Player, failure: Option<Error>, now: int, refill: seq<ServerPiece>)
    requires |refill| == Session.RefillBatch
    ensures Session.Proceed(p1.(waitingCaptcha := true), failure, now, refill).1 ==
            Session.Proceed(p1, failure, now, refill).1
  {
    if failure.None? {
      var q := Session.Proceed(p1, failure, now, refill).0;
      var qw := Session.Proceed(p1.(waitingCaptcha := true), failure, now, refill).0;
      assert qw.pieceIndex == q.pieceIndex && qw.currentScore == q.currentScore;
      assert qw.pieceSequence == q.pieceSequence;
      ServedReadsStream(qw, q);
    }
  }

  /** The answer depends only on the stream position and the score. */
  lemma ServedReadsStream(a: Player, b: Player)
    requires a.pieceIndex == b.pieceIndex && a.pieceSequence == b.pieceSequence
    requires a.currentScore == b.currentScore
    ensures Session.Served(a) == Session.Served(b)
  {
  }

  lemma TimingIgnoresWaiting(p: Player, now: int)
    ensures var w := p.(waitingCaptcha := true);
            && Session.Timing(w, now).1 == Session.Timing(p, now).1
            && Session.Timing(w, now).0 == Session.Timing(p, now).0.(waitingCaptcha := true)
  {
  }

  lemma ChallengePreservesInv(w: World, id: PlayerId, challengeId: string, draws: seq<nat>,
                              input: string, now: int)
    requires Inv(w.reg)
    requires |draws| == Captcha.CodeLength
    requires forall i :: 0 <= i < |draws| ==> draws[i] < |Captcha.Chars|
    ensures Inv(PauseForCaptcha(w, id, challengeId, draws, now).0.reg)
    ensures Inv(VerifyCaptchaAndResume(w, id, challengeId, input, now).0.reg)
  {
    var r1 := PauseForCaptcha(w, id, challengeId, draws, now);
    if r1.1.Some? {
      UpdatePreservesInv(w.reg, id, r1.0.reg.players[id]);
    }
    var r2 := VerifyCaptchaAndResume(w, id, challengeId, input, now);
    if r2.1.Ok? {
      UpdatePreservesInv(w.reg, id, r2.0.reg.players[id]);
    }
  }
}

=== FILE: common.dfy ===
/** Small failure-carrying wrappers shared by every module of the model. */
module Common {

  /** A value that may be absent; stands for JavaScript's `null`/`undefined`. */
  datatype Option<+T> = None | Some(value: T) {
    function GetOr(default: T): T {
      match this
      case Some(v) => v
      case None => default
    }
  }

  /** The outcome of an operation that either returns a value or throws. */
  datatype Result<+T, +E> = Ok(value: T) | Err(error: E)
}

=== FILE: difficulty.dfy ===
/** The difficulty tier table and the fall-time classifier of the server. */
module Difficulty {

  /** One row of the tier table: from `score` points on, pieces fall every `interval` ms. */
  datatype Tier = Tier(score: int, interval: int, level: int, name: string)

  const BaseDropInterval := 1000
  const MinDropInterval := 200
  const MaxDropInterval := 1000

  /** The tolerance ratio 0.5 is applied as `interval * 3 / 2`; see `IntervalsEven`. */
  const ExtraToleranceMs := 2000
  /** Number of speed violations (whole units) at which cheating is declared. */
  const SuspiciousCount := 8
  const MaxPauseTime := 30000
  const PauseTolerance := 10

  const Levels: seq<Tier> := [
    Tier(0,     1000, 1,  "新手"),
    Tier(500,   900,  2,  "初级"),
    Tier(1000,  800,  3,  "中级"),
    Tier(2000,  700,  4,  "高级"),
    Tier(3000,  600,  5,  "专家"),
    Tier(4000,  500,  6,  "大师"),
    Tier(5000,  450,  7,  "宗师"),
    Tier(6000,  400,  8,  "传奇"),
    Tier(7000,  350,  9,  "神话"),
    Tier(8000,  300,  10, "至尊"),
    Tier(10000, 250,  11, "超凡"),
    Tier(15000, 200,  12, "神级")
  ]

  /** Thresholds and levels rise along the table while intervals fall. */
  ghost predicate TableOrdered()
  {
    forall i, j :: 0 <= i < j < |Levels| ==>
      Levels[i].score < Levels[j].score &&
      Levels[i].level < Levels[j].level &&
      Levels[i].interval >= Levels[j].interval
  }

  lemma TableIsOrdered()
    ensures TableOrdered()
  {
    forall i, j | 0 <= i < j < |Levels|
      ensures Levels[i].score < Levels[j].score
      ensures Levels[i].level < Levels[j].level
      ensures Levels[i].interval >= Levels[j].interval
    {
      AdjacentOrdered(i, j);
    }
  }

  lemma {:induction false} AdjacentOrdered(i: nat, j: nat)
    requires i < j < |Levels|
    ensures Levels[i].score < Levels[j].score
    ensures Levels[i].level < Levels[j].level
    ensures Levels[i].interval >= Levels[j].interval
    decreases j - i
  {
    if i + 1 < j {
      AdjacentOrdered(i + 1, j);
    }
  }

  /** The downward scan of the lookup: the first row at or below `i` whose threshold the
      score reaches, or row 0 when the scan falls off the bottom of the table. */
  function ScanDown(score: int, i: nat): (k: nat)
    requires i < |Levels|
    ensures k <= i
    ensures k > 0 ==> Levels[k].score <= score
    ensures k == 0 ==> (Levels[0].score <= score || score < 0)
    ensures forall j :: k < j <= i ==> score < Levels[j].score
    decreases i
  {
    if score >= Levels[i].score then i
    else if i == 0 then 0
    else ScanDown(score, i - 1)
  }

  /** Index into `Levels` of the tier that applies at `score`. */
  function TierIndex(score: int): (k: nat)
    ensures k < |Levels|
    ensures k > 0 ==> Levels[k].score <= score
    ensures forall j :: k < j < |Levels| ==> score < Levels[j].score
  {
    ScanDown(score, |Levels| - 1)
  }

  function DifficultyByScore(score: int): (t: Tier)
    ensures t in Levels
    ensures score >= 0 ==> t.score <= score
    ensures score >= 0 ==> forall j :: 0 <= j < |Levels| && Levels[j].score <= score ==>
                                         Levels[j].score <= t.score
    ensures score < 0 ==> t == Levels[0]
    ensures MinDropInterval <= t.interval <= MaxDropInterval
  {
    var k := TierIndex(score);
    TierIsReached(score);
    TierIsHighest(score);
    IntervalInRange(k);
    Levels[k]
  }

  /** The chosen row's threshold is reached by a non-negative score; a negative score
      falls off the bottom of the scan onto row 0. */
  lemma TierIsReached(score: int)
    ensures score >= 0 ==> Levels[TierIndex(score)].score <= score
    ensures score < 0 ==> TierIndex(score) == 0
  {
    var k := TierIndex(score);
    assert Levels[0].score == 0;
    if k > 0 {
      AdjacentOrdered(0, k);
    }
  }

  /** No row whose threshold the score reaches has a higher threshold than the chosen one. */
  lemma TierIsHighest(score: int)
    ensures forall j :: 0 <= j < |Levels| && Levels[j].score <= score ==>
              Levels[j].score <= Levels[TierIndex(score)].score
  {
    var k := TierIndex(score);
    forall j | 0 <= j < |Levels| && Levels[j].score <= score
      ensures Levels[j].score <= Levels[k].score
    {
      if j < k {
        AdjacentOrdered(j, k);
      }
    }
  }

  /** Every row's interval lies between the last row's and the first row's. */
  lemma IntervalInRange(k: nat)
    requires k < |Levels|
    ensures MinDropInterval <= Levels[k].interval <= MaxDropInterval
  {
    if 0 < k {
      AdjacentOrdered(0, k);
    }
    if k < |Levels| - 1 {
      AdjacentOrdered(k, |Levels| - 1);
    }
  }

  /** A higher score never selects an earlier row of the table. */
  lemma TierIndexMonotone(s1: int, s2: int)
    requires s1 <= s2
    ensures TierIndex(s1) <= TierIndex(s2)
  {
  }

  /** A higher score never gives a lower level nor a longer drop interval. */
  lemma DifficultyMonotone(s1: int, s2: int)
    requires s1 <= s2
    ensures DifficultyByScore(s1).level <= DifficultyByScore(s2).level
    ensures DifficultyByScore(s1).interval >= DifficultyByScore(s2).interval
  {
    TierIndexMonotone(s1, s2);
    var k1, k2 := TierIndex(s1), TierIndex(s2);
    if k1 < k2 {
      AdjacentOrdered(k1, k2);
    }
  }

  /** The time window the server allows for one piece. */
  datatype Expected = Expected(ideal: int, max: int, level: int, name: string)

  function ExpectedFallTime(score: int): (e: Expected)
    ensures e.ideal == DifficultyByScore(score).interval
    ensures 2 * (e.max - ExtraToleranceMs) == 3 * e.ideal
    ensures e.ideal < e.max < MaxPauseTime
    ensures e.level == DifficultyByScore(score).level
  {
    var d := DifficultyByScore(score);
    IntervalsEven(TierIndex(score));
    // interval * (1 + 0.5), exact because every interval is even
    Expected(d.interval, d.interval + d.interval / 2 + ExtraToleranceMs, d.level, d.name)
  }

  /** Every interval in the table is even, so `interval * 1.5` is a whole number. */
  lemma IntervalsEven(i: nat)
    requires i < |Levels|
    ensures Levels[i].interval % 2 == 0
  {
  }

  datatype Severity = NoIssue | Low | High

  datatype FallCheck = FallCheck(valid: bool, severity: Severity, expected: Expected)

  /** Classifies the time a piece was active. Fast pieces are never rejected. */
  function ValidateFallTime(actualTime: int, score: int): (v: FallCheck)
    ensures v.expected == ExpectedFallTime(score)
    ensures !v.valid <==> actualTime > MaxPauseTime
    ensures !v.valid ==> v.severity == High
    ensures v.severity == Low <==> v.expected.max < actualTime < MaxPauseTime
    ensures v.severity == NoIssue <==> actualTime <= v.expected.max || actualTime == MaxPauseTime
  {
    var expected := ExpectedFallTime(score);
    if actualTime > expected.max && actualTime < MaxPauseTime then
      FallCheck(true, Low, expected)
    else if actualTime > MaxPauseTime then
      FallCheck(false, High, expected)
    else
      FallCheck(true, NoIssue, expected)
  }

  /** The two boundaries named by the timing rules both classify as normal. */
  lemma FallTimeBoundaries(score: int)
    ensures ValidateFallTime(ExpectedFallTime(score).max, score) ==
            FallCheck(true, NoIssue, ExpectedFallTime(score))
    ensures ValidateFallTime(MaxPauseTime, score) == FallCheck(true, NoIssue, ExpectedFallTime(score))
    ensures ValidateFallTime(MaxPauseTime + 1, score).valid == false
  {
  }
}

=== FILE: identity.dfy ===
/** Binding nicknames to emails: registration and login, deletion of finished players, and
    the projection that rebuilds the registry from stored records at start-up. */
module Identity {
  import opened Common
  import opened Players

  /** How a (nickname, email) pair relates to the registry. */
  datatype Check =
    | NewNickname     // nickname not taken: a new player
    | Unbound         // nickname taken, no email bound yet (records older than binding)
    | Matches         // nickname taken and bound to this email
    | Mismatch        // nickname taken and bound to another email

  /** A bound email that is the empty string counts as no binding, as a falsy value does. */
  predicate HasBinding(reg: Registry, nickname: string)
  {
    nickname in reg.emails && reg.emails[nickname] != ""
  }

  function ValidateNicknameEmail(reg: Registry, nickname: string, email: string): (c: Check)
    ensures c == NewNickname <==> nickname !in reg.nicknames
    ensures c == Mismatch <==>
              nickname in reg.nicknames && HasBinding(reg, nickname) && reg.emails[nickname] != email
    ensures c == Matches ==> HasBinding(reg, nickname) && reg.emails[nickname] == email
    ensures c == Unbound <==> nickname in reg.nicknames && !HasBinding(reg, nickname)
  {
    if nickname !in reg.nicknames then NewNickname
    else if !HasBinding(reg, nickname) then Unbound
    else if reg.emails[nickname] == email then Matches
    else Mismatch
  }

  /** The first player, in insertion order from position `i`, carrying `nickname`. */
  function FindFrom(reg: Registry, nickname: string, i: nat): (r: Option<PlayerId>)
    requires i <= |reg.order|
    ensures r.Some? ==> r.value in reg.players && reg.players[r.value].nickname == nickname
    ensures r.Some? ==> r.value in reg.order[i..]
    ensures r.None? ==> forall k :: i <= k < |reg.order| && reg.order[k] in reg.players ==>
                                      reg.players[reg.order[k]].nickname != nickname
    decreases |reg.order| - i
  {
    if i == |reg.order| then None
    else if reg.order[i] in reg.players && reg.players[reg.order[i]].nickname == nickname
    then Some(reg.order[i])
    else FindFrom(reg, nickname, i + 1)
  }

  function FindByNickname(reg: Registry, nickname: string): (r: Option<PlayerId>)
    ensures r.Some? ==> r.value in reg.players && reg.players[r.value].nickname == nickname
    ensures OrderMatches(reg) && r.None? ==>
              forall id :: id in reg.players ==> reg.players[id].nickname != nickname
  {
    FindFrom(reg, nickname, 0)
  }

  datatype Registration = Registration(player: Player, isNewPlayer: bool)

  /** The record of a returning player: per-run fields reset, email bound if it was not. */
  function Relogin(p: Player, email: string, bind: bool): (q: Player)
    ensures q.id == p.id && q.nickname == p.nickname && q.highestScore == p.highestScore
    ensures q.currentScore == 0 && q.status == Registered
    ensures q.gameState.None? && q.startTime.None? && q.endTime.None?
    ensures q.email == (if bind then Some(email) else p.email)
    ensures q.history == p.history && q.pieceSequence == p.pieceSequence
  {
    p.(email := if bind then Some(email) else p.email,
       currentScore := 0, status := Registered, gameState := None,
       startTime := None, endTime := None)
  }

  /** Register a new nickname, or log in under a known one. `freshId` is the id the server
      would generate for a new player. */
  function RegisterPlayer(reg: Registry, nickname: string, email: string, freshId: PlayerId)
    : (r: Outcome<Registration>)
    requires freshId !in reg.players
    ensures ValidateNicknameEmail(reg, nickname, email) == Mismatch ==>
              r == Outcome(reg, Err(IdentityMismatch))
    ensures nickname !in reg.nicknames ==>
              var p := NewPlayer(freshId, nickname, Some(email), 0, []);
              && r.result == Ok(Registration(p, true))
              && r.reg.players == reg.players[freshId := p]
              && r.reg.order == reg.order + [freshId]
              && r.reg.nicknames == reg.nicknames + {nickname}
              && r.reg.emails == reg.emails[nickname := email]
    ensures var c := ValidateNicknameEmail(reg, nickname, email);
            var found := FindByNickname(reg, nickname);
            (c == Matches || c == Unbound) && found.Some? ==>
              r.result == Ok(Registration(Relogin(reg.players[found.value], email, c == Unbound), false))
    ensures var c := ValidateNicknameEmail(reg, nickname, email);
            (c == Matches || c == Unbound) && FindByNickname(reg, nickname).None? ==>
              r == Outcome(reg, Err(DataAnomaly))
    ensures r.result.Ok? && !r.result.value.isNewPlayer ==>
              var p := r.result.value.player;
              var found := FindByNickname(reg, nickname);
              && found.Some?
              && r.reg.players == reg.players[found.value := p]
              && r.reg.players.Keys == reg.players.Keys
              && p.nickname == nickname && p.currentScore == 0 && p.status == Registered
              && p.highestScore == reg.players[found.value].highestScore
              && p.history == reg.players[found.value].history
              && r.reg.order == reg.order && r.reg.nicknames == reg.nicknames
              && (HasBinding(reg, nickname) ==> r.reg.emails == reg.emails)
              && (!HasBinding(reg, nickname) ==> r.reg.emails == reg.emails[nickname := email])
    ensures r.result.Err? ==> r.reg == reg
  {
    match ValidateNicknameEmail(reg, nickname, email)
    case Mismatch => Outcome(reg, Err(IdentityMismatch))
    case NewNickname =>
      var p := NewPlayer(freshId, nickname, Some(email), 0, []);
      var reg' := Put(reg, freshId, p);
      Outcome(reg'.(nicknames := reg.nicknames + {nickname},
                    emails := reg.emails[nickname := email]),
              Ok(Registration(p, true)))
    case check =>
      match FindByNickname(reg, nickname)
      case None => Outcome(reg, Err(DataAnomaly))
      case Some(id) =>
        var bind := check == Unbound;
        var p := Relogin(reg.players[id], email, bind);
        var reg' := Update(reg, id, p);
        Outcome(if bind then reg'.(emails := reg.emails[nickname := email]) else reg',
                Ok(Registration(p, false)))
  }

  lemma RegisterPreservesInv(reg: Registry, nickname: string, email: string, freshId: PlayerId)
    requires Inv(reg) && freshId !in reg.players
    ensures Inv(RegisterPlayer(reg, nickname, email, freshId).reg)
  {
    var r := RegisterPlayer(reg, nickname, email, freshId);
    if nickname !in reg.nicknames {
      NewNicknamePreservesInv(reg, nickname, email, freshId);
    } else if r.result.Ok? {
      var id := FindByNickname(reg, nickname).value;
      var p := r.result.value.player;
      assert p == Relogin(reg.players[id], email, !HasBinding(reg, nickname));
      UpdatePreservesInv(reg, id, p);
      assert r.reg.players == Update(reg, id, p).players;
    }
  }

  lemma NewNicknamePreservesInv(reg: Registry, nickname: string, email: string, freshId: PlayerId)
    requires Inv(reg) && freshId !in reg.players && nickname !in reg.nicknames
    ensures Inv(RegisterPlayer(reg, nickname, email, freshId).reg)
  {
    var r := RegisterPlayer(reg, nickname, email, freshId).reg;
    var p := NewPlayer(freshId, nickname, Some(email), 0, []);
    assert freshId !in reg.order;
    assert OrderMatches(r) by {
      forall i | 0 <= i < |r.order|
        ensures r.order[i] in r.players
      {
        if i < |reg.order| { assert r.order[i] == reg.order[i]; }
      }
      forall i, j | 0 <= i < j < |r.order|
        ensures r.order[i] != r.order[j]
      {
        if j < |reg.order| {
          assert r.order[i] == reg.order[i] && r.order[j] == reg.order[j];
        } else {
          assert r.order[i] == reg.order[i];
        }
      }
    }
    assert NicknamesUnique(r) by {
      forall a, b | a in r.players && b in r.players && r.players[a].nickname == r.players[b].nickname
        ensures a == b
      {
        if a != freshId && b != freshId {
          assert reg.players[a].nickname == reg.players[b].nickname;
        }
      }
    }
  }

  /** Logging in again with the email a nickname was registered with never creates a second
      player: the second call finds the first call's player and adds no id. */
  lemma SecondLoginCreatesNoPlayer(reg: Registry, nickname: string, email: string,
                                   id1: PlayerId, id2: PlayerId)
    requires Inv(reg) && id1 !in reg.players
    requires RegisterPlayer(reg, nickname, email, id1).result.Ok?
    requires id2 !in RegisterPlayer(reg, nickname, email, id1).reg.players
    ensures var reg1 := RegisterPlayer(reg, nickname, email, id1).reg;
            var r2 := RegisterPlayer(reg1, nickname, email, id2);
            && r2.result.Ok? && !r2.result.value.isNewPlayer
            && r2.reg.players.Keys == reg1.players.Keys
  {
    var r1 := RegisterPlayer(reg, nickname, email, id1);
    var reg1 := r1.reg;
    RegisterPreservesInv(reg, nickname, email, id1);
    var owner := r1.result.value.player.id;
    assert owner in reg1.players && reg1.players[owner].nickname == nickname;
    if nickname in reg.nicknames && HasBinding(reg, nickname) {
      assert reg1.emails == reg.emails;
    } else {
      assert reg1.emails == reg.emails[nickname := email];
    }
    assert nickname in reg1.emails && reg1.emails[nickname] == email;
    KnownNicknameLogsIn(reg1, nickname, email, id2, owner);
  }

  /** A nickname some player carries logs in whenever its email matches or none is bound:
      no player is added and the found player is reset. */
  lemma KnownNicknameLogsIn(reg: Registry, nickname: string, email: string, freshId: PlayerId,
                            owner: PlayerId)
    requires Inv(reg) && freshId !in reg.players
    requires owner in reg.players && reg.players[owner].nickname == nickname
    requires ValidateNicknameEmail(reg, nickname, email) != Mismatch
    ensures var r := RegisterPlayer(reg, nickname, email, freshId);
            && r.result.Ok? && !r.result.value.isNewPlayer
            && r.reg.players.Keys == reg.players.Keys
  {
    assert nickname in reg.nicknames;
    assert FindByNickname(reg, nickname).Some?;
  }

  /** Deleting is allowed only for finished players; it frees the nickname and its binding. */
  function DeletePlayer(reg: Registry, id: PlayerId): (r: Outcome<()>)
    ensures id !in reg.players ==> r == Outcome(reg, Err(NotFound))
    ensures id in reg.players && reg.players[id].status != Finished ==>
              r == Outcome(reg, Err(NotFinished))
    ensures r.result.Ok? <==> id in reg.players && reg.players[id].status == Finished
    ensures r.result.Ok? ==>
              var nick := reg.players[id].nickname;
              && r.reg.players == reg.players - {id}
              && r.reg.nicknames == reg.nicknames - {nick}
              && r.reg.emails == reg.emails - {nick}
              && (forall x :: x in r.reg.order <==> x in reg.order && x != id)
              && r.reg.order == Without(reg.order, id)
  {
    if id !in reg.players then Outcome(reg, Err(NotFound))
    else
      var p := reg.players[id];
      if p.status != Finished then Outcome(reg, Err(NotFinished))
      else Outcome(Registry(reg.players - {id}, Without(reg.order, id),
                            reg.nicknames - {p.nickname}, reg.emails - {p.nickname}), Ok(()))
  }

  /** Deleting a player closes the gap in the insertion order and moves no one else. */
  lemma DeleteKeepsOrder(reg: Registry, id: PlayerId, before: seq<PlayerId>, after: seq<PlayerId>)
    requires reg.order == before + [id] + after && id !in before && id !in after
    requires id in reg.players && reg.players[id].status == Finished
    ensures DeletePlayer(reg, id).reg.order == before + after
  {
    WithoutGap(before, after, id);
  }

  lemma DeletePreservesInv(reg: Registry, id: PlayerId)
    requires Inv(reg)
    ensures Inv(DeletePlayer(reg, id).reg)
  {
    var r := DeletePlayer(reg, id).reg;
    if DeletePlayer(reg, id).result.Ok? {
      WithoutKeepsDistinct(reg.order, id);
      forall i | 0 <= i < |r.order|
        ensures r.order[i] in r.players
      {
        assert r.order[i] in r.order;
      }
    }
  }

  /** A record as the persistence layer hands it back; absent fields are `None`. */
  datatype StoredPlayer = StoredPlayer(id: PlayerId, nickname: string, email: Option<string>,
                                       highestScore: Option<int>, history: Option<seq<Run>>)

  /** Only finished results survive a restart: the player comes back registered with no
      current score; a missing or zero highest score reads as 0. */
  function Restored(s: StoredPlayer): (p: Player)
    ensures p.id == s.id && p.nickname == s.nickname && p.email == s.email
    ensures p.status == Registered && p.currentScore == 0
    ensures p.highestScore == s.highestScore.GetOr(0)
    ensures p.history == s.history.GetOr([])
  {
    NewPlayer(s.id, s.nickname, s.email, s.highestScore.GetOr(0), s.history.GetOr([]))
  }

  /** A stored email that is present and non-empty is bound to the nickname. */
  predicate HasStoredEmail(s: StoredPlayer)
  {
    s.email.Some? && s.email.value != ""
  }

  /** The ids among the stored records. */
  ghost function StoredIds(stored: seq<StoredPlayer>): set<PlayerId>
    decreases |stored|
  {
    if |stored| == 0 then {} else StoredIds(stored[..|stored| - 1]) + {stored[|stored| - 1].id}
  }

  lemma {:induction false} StoredIdsMembers(stored: seq<StoredPlayer>, id: PlayerId)
    ensures id in StoredIds(stored) <==> exists k :: 0 <= k < |stored| && stored[k].id == id
    decreases |stored|
  {
    if |stored| > 0 {
      var n := |stored| - 1;
      var pre := stored[..n];
      StoredIdsMembers(pre, id);
      assert forall k :: 0 <= k < n ==> pre[k] == stored[k];
    }
  }

  /** No record after position `k` has the id of record `k`. */
  ghost predicate LastWithId(stored: seq<StoredPlayer>, k: int)
    requires 0 <= k < |stored|
  {
    forall k' :: k < k' < |stored| ==> stored[k'].id != stored[k].id
  }

  /** Restores the stored records one after the other into `base`, as `Map.set` does: a
      later record with the same id replaces the value and keeps the first one's place. */
  function RestoreFrom(base: Registry, stored: seq<StoredPlayer>): (r: Registry)
    ensures r.players.Keys == base.players.Keys + StoredIds(stored)
    ensures r.nicknames == base.nicknames
    decreases |stored|
  {
    if |stored| == 0 then base
    else
      var n := |stored| - 1;
      var s := stored[n];
      BindStored(Put(RestoreFrom(base, stored[..n]), s.id, Restored(s)), s)
  }

  /** A record that is the last with its id stays so in the prefix without the final
      record, and the final record has another id. */
  lemma LastInPrefix(stored: seq<StoredPlayer>, k: nat)
    requires k < |stored| - 1 && LastWithId(stored, k)
    ensures var pre := stored[..|stored| - 1];
            pre[k] == stored[k] && LastWithId(pre, k) && stored[k].id != stored[|stored| - 1].id
  {
    var pre := stored[..|stored| - 1];
    forall k' | k < k' < |pre| ensures pre[k'].id != pre[k].id {
      assert pre[k'] == stored[k'];
    }
  }

  /** After restoring, every stored id is present and holds its last record, and the players
      of `base` that were not stored are untouched. */
  lemma {:induction false} RestoreFromContents(base: Registry, stored: seq<StoredPlayer>)
    ensures var r := RestoreFrom(base, stored);
            && (forall k :: 0 <= k < |stored| ==> stored[k].id in r.players)
            && (forall k :: 0 <= k < |stored| && LastWithId(stored, k) ==>
                  r.players[stored[k].id] == Restored(stored[k]))
            && (forall id :: id in base.players && id !in StoredIds(stored) ==>
                  r.players[id] == base.players[id])
    decreases |stored|
  {
    var r := RestoreFrom(base, stored);
    forall k | 0 <= k < |stored|
      ensures stored[k].id in r.players
    {
      StoredIdsMembers(stored, stored[k].id);
    }
    if |stored| > 0 {
      var n := |stored| - 1;
      var pre := stored[..n];
      var s := stored[n];
      var reg := RestoreFrom(base, pre);
      RestoreFromContents(base, pre);
      assert r.players == reg.players[s.id := Restored(s)];
      assert StoredIds(stored) == StoredIds(pre) + {s.id};
      forall k | 0 <= k < |stored| && LastWithId(stored, k)
        ensures r.players[stored[k].id] == Restored(stored[k])
      {
        if k < n {
          LastInPrefix(stored, k);
          assert reg.players[pre[k].id] == Restored(pre[k]);
        } else {
          assert k == n;
        }
      }
    }
  }

  /** Binds the stored email of `s` to its nickname, when it has one. */
  function BindStored(reg: Registry, s: StoredPlayer): (r: Registry)
    ensures r.players == reg.players && r.order == reg.order && r.nicknames == reg.nicknames
  {
    if HasStoredEmail(s) then reg.(emails := reg.emails[s.nickname := s.email.value]) else reg
  }

  /** The nicknames among the stored records that carry a stored email. */
  ghost function BoundNicknames(stored: seq<StoredPlayer>): set<string>
    decreases |stored|
  {
    if |stored| == 0 then {}
    else
      var s := stored[|stored| - 1];
      BoundNicknames(stored[..|stored| - 1]) + (if HasStoredEmail(s) then {s.nickname} else {})
  }

  lemma {:induction false} BoundNicknamesMembers(stored: seq<StoredPlayer>, n: string)
    ensures n in BoundNicknames(stored) <==>
              exists k :: 0 <= k < |stored| && HasStoredEmail(stored[k]) && stored[k].nickname == n
    decreases |stored|
  {
    if |stored| > 0 {
      var m := |stored| - 1;
      var pre := stored[..m];
      BoundNicknamesMembers(pre, n);
      assert forall k :: 0 <= k < m ==> pre[k] == stored[k];
    }
  }

  /** Record `k` carries a stored email, and no later record binds an email to its nickname. */
  ghost predicate LastBinding(stored: seq<StoredPlayer>, k: int)
    requires 0 <= k < |stored|
  {
    && HasStoredEmail(stored[k])
    && forall k' :: k < k' < |stored| && HasStoredEmail(stored[k']) ==>
                      stored[k'].nickname != stored[k].nickname
  }

  /** The last step of a restore binds the final record's email, when it has one. */
  lemma RestoreStepEmails(base: Registry, stored: seq<StoredPlayer>)
    requires |stored| > 0
    ensures var s := stored[|stored| - 1];
            var reg := RestoreFrom(base, stored[..|stored| - 1]);
            RestoreFrom(base, stored).emails ==
              (if HasStoredEmail(s) then reg.emails[s.nickname := s.email.value] else reg.emails)
  {
  }

  /** The last step of a restore at one nickname: the final record's email if it binds that
      nickname, otherwise whatever the earlier steps left. */
  lemma RestoreStepAt(base: Registry, stored: seq<StoredPlayer>, n: string)
    requires |stored| > 0
    ensures var s := stored[|stored| - 1];
            var before := RestoreFrom(base, stored[..|stored| - 1]).emails;
            var after := RestoreFrom(base, stored).emails;
            && (HasStoredEmail(s) && n == s.nickname ==> n in after && after[n] == s.email.value)
            && (!(HasStoredEmail(s) && n == s.nickname) ==>
                  (n in after <==> n in before) && (n in before ==> after[n] == before[n]))
  {
    RestoreStepEmails(base, stored);
  }

  /** After restoring, a nickname is bound exactly when `base` bound it or a stored record
      with a stored email carries it. */
  lemma {:induction false} RestoreFromEmailKeys(base: Registry, stored: seq<StoredPlayer>)
    ensures RestoreFrom(base, stored).emails.Keys == base.emails.Keys + BoundNicknames(stored)
    decreases |stored|
  {
    if |stored| > 0 {
      RestoreFromEmailKeys(base, stored[..|stored| - 1]);
      RestoreStepEmails(base, stored);
    }
  }

  /** A record that binds last stays so in the prefix without the final record, and the
      final record, if it binds at all, binds another nickname. */
  lemma LastBindingInPrefix(stored: seq<StoredPlayer>, k: nat)
    requires k < |stored| - 1 && LastBinding(stored, k)
    ensures var pre := stored[..|stored| - 1];
            var s := stored[|stored| - 1];
            && pre[k] == stored[k] && LastBinding(pre, k)
            && (HasStoredEmail(s) ==> s.nickname != stored[k].nickname)
  {
    var pre := stored[..|stored| - 1];
    forall k' | k < k' < |pre| && HasStoredEmail(pre[k'])
      ensures pre[k'].nickname != pre[k].nickname
    {
      assert pre[k'] == stored[k'];
    }
  }

  /** The email of a record that binds last is the one restored for its nickname. */
  lemma {:induction false} LastBindingRestored(base: Registry, stored: seq<StoredPlayer>, k: nat)
    requires k < |stored| && LastBinding(stored, k)
    ensures var after := RestoreFrom(base, stored).emails;
            stored[k].nickname in after && after[stored[k].nickname] == stored[k].email.value
    decreases |stored|
  {
    if k < |stored| - 1 {
      LastBindingInPrefix(stored, k);
      LastBindingRestored(base, stored[..|stored| - 1], k);
    }
    RestoreStepAt(base, stored, stored[k].nickname);
  }

  /** The email of the last record binding a nickname is the one restored for it. */
  lemma {:induction false} RestoreFromLastBinding(base: Registry, stored: seq<StoredPlayer>)
    ensures var r := RestoreFrom(base, stored);
            forall k :: 0 <= k < |stored| && LastBinding(stored, k) ==>
              stored[k].nickname in r.emails && r.emails[stored[k].nickname] == stored[k].email.value
  {
    forall k | 0 <= k < |stored| && LastBinding(stored, k)
      ensures var after := RestoreFrom(base, stored).emails;
              stored[k].nickname in after && after[stored[k].nickname] == stored[k].email.value
    {
      LastBindingRestored(base, stored, k);
    }
  }

  /** A binding of `base` whose nickname no stored record binds survives the restore. */
  lemma {:induction false} RestoreFromKeepsBindings(base: Registry, stored: seq<StoredPlayer>)
    ensures var r := RestoreFrom(base, stored);
            forall n :: n in base.emails && n !in BoundNicknames(stored) ==>
              n in r.emails && r.emails[n] == base.emails[n]
    decreases |stored|
  {
    if |stored| > 0 {
      RestoreFromKeepsBindings(base, stored[..|stored| - 1]);
      RestoreStepEmails(base, stored);
    }
  }

  /** Each record is the last one with its id, or a later one with that id exists. */
  lemma {:induction false} LastOccurrence(stored: seq<StoredPlayer>, id: PlayerId)
    requires id in StoredIds(stored)
    ensures exists k :: 0 <= k < |stored| && stored[k].id == id && LastWithId(stored, k)
    decreases |stored|
  {
    StoredIdsMembers(stored, id);
    var n := |stored| - 1;
    if stored[n].id != id {
      var pre := stored[..n];
      var k :| 0 <= k < |stored| && stored[k].id == id;
      assert pre[k].id == id;
      LastOccurrence(pre, id);
      var k2 :| 0 <= k2 < |pre| && pre[k2].id == id && LastWithId(pre, k2);
      assert stored[k2].id == id;
      assert LastWithId(stored, k2);
    } else {
      assert LastWithId(stored, n);
    }
  }

  /** The start-up projection of the stored players and nickname list: every stored id comes
      back, registered with no current score, holding its last stored record, and every
      stored email is bound again to its nickname, the last record's email winning. */
  /** The position of the first record with id `id`, or `|stored|` when there is none. */
  function FirstAt(stored: seq<StoredPlayer>, id: PlayerId): (k: nat)
    ensures k <= |stored|
    ensures k < |stored| ==> stored[k].id == id
    ensures forall j :: 0 <= j < k ==> stored[j].id != id
    decreases |stored|
  {
    if |stored| == 0 then 0
    else if stored[0].id == id then 0
    else 1 + FirstAt(stored[1..], id)
  }

  /** Appending a record moves no first position, and places a new id at the end. */
  lemma FirstAtSnoc(stored: seq<StoredPlayer>, id: PlayerId)
    requires |stored| > 0
    ensures var pre := stored[..|stored| - 1];
            && (FirstAt(pre, id) < |pre| ==> FirstAt(stored, id) == FirstAt(pre, id))
            && (FirstAt(pre, id) == |pre| && stored[|pre|].id == id ==> FirstAt(stored, id) == |pre|)
  {
    var pre := stored[..|stored| - 1];
    var a, b := FirstAt(stored, id), FirstAt(pre, id);
    if b < |pre| {
      assert stored[b] == pre[b];
    }
  }

  /** An id is among the stored ids exactly when it has a first position. */
  lemma FirstAtMembers(stored: seq<StoredPlayer>, id: PlayerId)
    ensures id in StoredIds(stored) <==> FirstAt(stored, id) < |stored|
  {
    StoredIdsMembers(stored, id);
  }

  /** `order` lists stored ids, strictly by the position of their first record. */
  ghost predicate ByFirstRecord(stored: seq<StoredPlayer>, order: seq<PlayerId>)
  {
    && (forall i :: 0 <= i < |order| ==> FirstAt(stored, order[i]) < |stored|)
    && (forall i, j :: 0 <= i < j < |order| ==> FirstAt(stored, order[i]) < FirstAt(stored, order[j]))
  }

  /** A further record leaves the first positions of the ids already listed alone. */
  lemma FirstAtKept(stored: seq<StoredPlayer>, order: seq<PlayerId>)
    requires |stored| > 0 && ByFirstRecord(stored[..|stored| - 1], order)
    ensures forall i :: 0 <= i < |order| ==>
              FirstAt(stored, order[i]) == FirstAt(stored[..|stored| - 1], order[i])
  {
    forall i | 0 <= i < |order|
      ensures FirstAt(stored, order[i]) == FirstAt(stored[..|stored| - 1], order[i])
    {
      FirstAtSnoc(stored, order[i]);
    }
  }

  /** One restore step keeps the order sorted by first record and exactly the stored ids. */
  lemma ByFirstRecordStep(stored: seq<StoredPlayer>, order: seq<PlayerId>)
    requires |stored| > 0
    requires var pre := stored[..|stored| - 1];
             ByFirstRecord(pre, order) && forall id :: id in order <==> id in StoredIds(pre)
    ensures var pre := stored[..|stored| - 1];
            var x := stored[|stored| - 1];
            var next := if x.id in StoredIds(pre) then order else order + [x.id];
            ByFirstRecord(stored, next) && forall id :: id in next <==> id in StoredIds(stored)
  {
    var m := |stored| - 1;
    var pre := stored[..m];
    var x := stored[m];
    assert StoredIds(stored) == StoredIds(pre) + {x.id};
    FirstAtKept(stored, order);
    if x.id !in StoredIds(pre) {
      FirstAtMembers(pre, x.id);
      FirstAtSnoc(stored, x.id);
      ByFirstRecordAppend(stored, order, x.id);
    }
  }

  /** An id whose first record is the last one goes to the end of a sorted order. */
  lemma ByFirstRecordAppend(stored: seq<StoredPlayer>, order: seq<PlayerId>, id: PlayerId)
    requires |stored| > 0 && FirstAt(stored, id) == |stored| - 1
    requires forall i :: 0 <= i < |order| ==> FirstAt(stored, order[i]) < |stored| - 1
    requires forall i, j :: 0 <= i < j < |order| ==> FirstAt(stored, order[i]) < FirstAt(stored, order[j])
    ensures ByFirstRecord(stored, order + [id])
  {
    AppendedPositions(stored, order, id);
    AppendedSorted(stored, order, id);
  }

  lemma AppendedPositions(stored: seq<StoredPlayer>, order: seq<PlayerId>, id: PlayerId)
    requires FirstAt(stored, id) < |stored|
    requires forall i :: 0 <= i < |order| ==> FirstAt(stored, order[i]) < |stored|
    ensures forall i :: 0 <= i < |order + [id]| ==> FirstAt(stored, (order + [id])[i]) < |stored|
  {
    var next := order + [id];
    forall i | 0 <= i < |next|
      ensures FirstAt(stored, next[i]) < |stored|
    {
      if i < |order| {
        assert next[i] == order[i];
      } else {
        assert next[i] == id;
      }
    }
  }

  lemma AppendedSorted(stored: seq<StoredPlayer>, order: seq<PlayerId>, id: PlayerId)
    requires forall i :: 0 <= i < |order| ==> FirstAt(stored, order[i]) < FirstAt(stored, id)
    requires forall i, j :: 0 <= i < j < |order| ==> FirstAt(stored, order[i]) < FirstAt(stored, order[j])
    ensures forall i, j :: 0 <= i < j < |order + [id]| ==>
              FirstAt(stored, (order + [id])[i]) < FirstAt(stored, (order + [id])[j])
  {
    var next := order + [id];
    forall i, j | 0 <= i < j < |next|
      ensures FirstAt(stored, next[i]) < FirstAt(stored, next[j])
    {
      assert next[i] == order[i];
      if j < |order| {
        assert next[j] == order[j];
      } else {
        assert next[j] == id;
      }
    }
  }

  /** Strictly increasing first positions leave no id twice. */
  lemma ByFirstRecordDistinct(stored: seq<StoredPlayer>, order: seq<PlayerId>)
    requires ByFirstRecord(stored, order)
    ensures Distinct(order)
  {
    forall i, j | 0 <= i < j < |order|
      ensures order[i] != order[j]
    {
      assert FirstAt(stored, order[i]) < FirstAt(stored, order[j]);
    }
  }

  /** Restoring into an empty registry lists each stored id once, ordered by the position of
      its first record: a JavaScript `Map` keeps a key where it was first set. */
  lemma {:induction false} RestoreFromOrder(base: Registry, stored: seq<StoredPlayer>)
    requires base.order == [] && base.players == map[]
    ensures var r := RestoreFrom(base, stored);
            ByFirstRecord(stored, r.order) && forall id :: id in r.order <==> id in StoredIds(stored)
    decreases |stored|
  {
    if |stored| > 0 {
      var pre := stored[..|stored| - 1];
      RestoreFromOrder(base, pre);
      ByFirstRecordStep(stored, RestoreFrom(base, pre).order);
    }
  }

  /** The order a restore leaves lists exactly the players, each once, by first record. */
  lemma RestoreOrderMatches(base: Registry, stored: seq<StoredPlayer>)
    requires base.order == [] && base.players == map[]
    ensures var r := RestoreFrom(base, stored);
            && OrderMatches(r)
            && forall i, j :: 0 <= i < j < |r.order| ==>
                 FirstAt(stored, r.order[i]) < FirstAt(stored, r.order[j])
  {
    var r := RestoreFrom(base, stored);
    RestoreFromOrder(base, stored);
    ByFirstRecordDistinct(stored, r.order);
    assert r.players.Keys == StoredIds(stored);
  }

  function Restore(stored: seq<StoredPlayer>, nicknames: seq<string>): (r: Registry)
    ensures r.players.Keys == StoredIds(stored)
    ensures forall k :: 0 <= k < |stored| ==> stored[k].id in r.players
    ensures forall id :: id in r.players ==>
              r.players[id].status == Registered && r.players[id].currentScore == 0
    ensures forall k :: 0 <= k < |stored| && LastWithId(stored, k) ==>
              r.players[stored[k].id] == Restored(stored[k])
    ensures r.nicknames == set n | n in nicknames
    ensures forall n :: n in r.emails <==>
              exists k :: 0 <= k < |stored| && HasStoredEmail(stored[k]) && stored[k].nickname == n
    ensures forall k :: 0 <= k < |stored| && LastBinding(stored, k) ==>
              r.emails[stored[k].nickname] == stored[k].email.value
    ensures OrderMatches(r)
    ensures forall i, j :: 0 <= i < j < |r.order| ==>
              FirstAt(stored, r.order[i]) < FirstAt(stored, r.order[j])
  {
    var base := EmptyRegistry().(nicknames := set n | n in nicknames);
    var r := RestoreFrom(base, stored);
    RestoreOrderMatches(base, stored);
    RestoreFromContents(base, stored);
    RestoreFromEmailKeys(base, stored);
    RestoreFromLastBinding(base, stored);
    forall n
      ensures n in r.emails <==>
                exists k :: 0 <= k < |stored| && HasStoredEmail(stored[k]) && stored[k].nickname == n
    {
      BoundNicknamesMembers(stored, n);
    }
    forall id | id in r.players
      ensures r.players[id].status == Registered && r.players[id].currentScore == 0
    {
      LastOccurrence(stored, id);
      var k :| 0 <= k < |stored| && stored[k].id == id && LastWithId(stored, k);
      assert r.players[id] == Restored(stored[k]);
    }
    r
  }
}

=== FILE: line_clear.dfy ===
/** Clearing full rows after a piece is locked, and the score, line, level and speed
    bookkeeping that follows. */
module LineClear {
  import opened Board

  /** Every cell of the row is non-empty (an empty row of no cells counts as full). */
  predicate RowFull(row: seq<int>)
  {
    forall c :: 0 <= c < |row| ==> row[c] != 0
  }

  /** The rows of `b` that are not full, top to bottom. */
  function KeptRows(b: Grid): (k: Grid)
    ensures |k| <= |b|
  {
    if |b| == 0 then []
    else (if RowFull(b[0]) then [] else [b[0]]) + KeptRows(b[1..])
  }

  /** The kept rows have the width of the field's rows, and none of them is full. */
  lemma {:induction false} KeptRowsFromBoard(b: Grid)
    requires forall r :: 0 <= r < |b| ==> |b[r]| == Cols
    ensures forall r :: 0 <= r < |KeptRows(b)| ==> !RowFull(KeptRows(b)[r]) && |KeptRows(b)[r]| == Cols
  {
    if |b| > 0 {
      KeptRowsFromBoard(b[1..]);
      var k := KeptRows(b);
      var t := KeptRows(b[1..]);
      forall r | 0 <= r < |k|
        ensures !RowFull(k[r]) && |k[r]| == Cols
      {
        if RowFull(b[0]) {
          assert k[r] == t[r];
        } else if r > 0 {
          assert k[r] == t[r - 1];
        }
      }
    }
  }

  /** Number of full rows in `b`. */
  function CountFull(b: Grid): (n: nat)
    ensures n + |KeptRows(b)| == |b|
  {
    if |b| == 0 then 0
    else (if RowFull(b[0]) then 1 else 0) + CountFull(b[1..])
  }

  function EmptyRows(n: nat): (z: Grid)
    ensures |z| == n
    ensures forall r :: 0 <= r < n ==> z[r] == EmptyRow()
  {
    seq(n, _ => EmptyRow())
  }

  lemma {:induction false} KeptStep(b: Grid, m: nat)
    requires 0 < m <= |b|
    ensures KeptRows(b[m - 1..]) ==
              (if RowFull(b[m - 1]) then [] else [b[m - 1]]) + KeptRows(b[m..])
    ensures CountFull(b[m - 1..]) == (if RowFull(b[m - 1]) then 1 else 0) + CountFull(b[m..])
  {
    assert b[m - 1..][1..] == b[m..];
  }

  /** The field part-way through the scan: `n` rows removed and replaced by empty rows on
      top, the first `m` rows not yet examined, and below them the kept rows of the rest. */
  ghost function Scan(board: Grid, n: nat, m: nat): Grid
    requires m <= |board|
  {
    EmptyRows(n) + board[..m] + KeptRows(board[m..])
  }

  lemma {:induction false} ScanIndex(board: Grid, n: nat, m: nat, y: int)
    requires m <= |board| && 0 <= y < n + m
    ensures |Scan(board, n, m)| > y
    ensures y < n ==> Scan(board, n, m)[y] == EmptyRow()
    ensures n <= y ==> Scan(board, n, m)[y] == board[y - n]
  {
  }

  /** Splicing out the full row at the bottom of the unscanned part and pushing an empty row
      on top keeps the shape of the scan. */
  lemma {:induction false} SpliceFullRow(board: Grid, n: nat, m: nat)
    requires 0 < m <= |board|
    requires RowFull(board[m - 1])
    ensures n + m - 1 < |Scan(board, n, m)|
    ensures var b := Scan(board, n, m);
            [EmptyRow()] + b[..n + m - 1] + b[n + m..] == Scan(board, n + 1, m - 1)
  {
    var b := Scan(board, n, m);
    KeptStep(board, m);
    assert b[..n + m - 1] == EmptyRows(n) + board[..m - 1];
    assert b[n + m..] == KeptRows(board[m..]);
    assert [EmptyRow()] + EmptyRows(n) == EmptyRows(n + 1);
  }

  /** Passing over a row that is not full moves it from the unscanned part to the kept part. */
  lemma {:induction false} PassKeptRow(board: Grid, n: nat, m: nat)
    requires 0 < m <= |board|
    requires !RowFull(board[m - 1])
    ensures Scan(board, n, m) == Scan(board, n, m - 1)
  {
    KeptStep(board, m);
    assert board[..m] == board[..m - 1] + [board[m - 1]];
  }

  lemma EmptyRowNotFull()
    ensures !RowFull(EmptyRow())
  {
    assert EmptyRow()[0] == 0;
  }

  /** The state of the scan with cursor `y`: the field is `Scan(board, n, m)`, `n` counts
      the full rows below the unscanned part, and the cursor sits on the lowest unscanned
      row, or among the empty rows on top once every row has been examined. */
  ghost predicate Scanning(board: Grid, b: Grid, n: nat, m: nat, y: int)
  {
    && m <= |board| && -1 <= y
    && b == Scan(board, n, m)
    && n == CountFull(board[m..])
    && (m > 0 ==> y + 1 == n + m)
    && (m == 0 ==> y < n)
  }

  /** The row under the cursor is full exactly when it is an unscanned row that is full;
      the empty rows pushed on top never are. */
  lemma {:induction false} ScanCursor(board: Grid, b: Grid, n: nat, m: nat, y: int)
    requires Scanning(board, b, n, m, y) && 0 <= y
    ensures y < |b|
    ensures RowFull(b[y]) <==> m > 0 && RowFull(board[m - 1])
  {
    ScanIndex(board, n, m, y);
    EmptyRowNotFull();
  }

  /** Splicing out a full row under the cursor and pushing an empty row on top is the scan
      with one more row removed. */
  lemma {:induction false} ScanFullStep(board: Grid, b: Grid, n: nat, m: nat, y: int)
    requires Scanning(board, b, n, m, y) && 0 <= y < |b| && RowFull(b[y])
    ensures m > 0 && Scanning(board, [EmptyRow()] + b[..y] + b[y + 1..], n + 1, m - 1, y)
  {
    ScanCursor(board, b, n, m, y);
    KeptStep(board, m);
    SpliceFullRow(board, n, m);
  }

  /** Passing a row that is not full moves the cursor up: an unscanned row joins the kept
      part, an empty row on top is left as it is. */
  lemma {:induction false} ScanKeptStep(board: Grid, b: Grid, n: nat, m: nat, y: int)
    requires Scanning(board, b, n, m, y) && 0 <= y < |b| && !RowFull(b[y])
    ensures Scanning(board, b, n, if m > 0 then m - 1 else 0, y - 1)
  {
    ScanCursor(board, b, n, m, y);
    if m > 0 {
      KeptStep(board, m);
      PassKeptRow(board, n, m);
    }
  }

  /** Before the scan nothing is removed and the cursor is on the bottom row. */
  lemma ScanStart(board: Grid)
    requires |board| == Rows
    ensures Scanning(board, board, 0, Rows, Rows - 1)
  {
    assert board[..Rows] == board;
    assert board[Rows..] == [];
  }

  /** Once the cursor has left the top, every row has been examined. */
  lemma ScanDone(board: Grid, b: Grid, n: nat, m: nat, y: int)
    requires Scanning(board, b, n, m, y) && y < 0
    ensures n == CountFull(board) && b == EmptyRows(n) + KeptRows(board)
  {
    assert m == 0;
    assert board[0..] == board;
    assert board[..0] == [];
  }

  /** The line-clear pass as the game runs it: scanning upwards from the bottom row, each
      full row is spliced out and an empty row pushed on top, and the same row index is
      examined again. `n` is the number of rows removed. */
  method CheckLines(board: Grid) returns (b: Grid, n: nat)
    requires WellFormed(board)
    ensures n == CountFull(board)
    ensures b == EmptyRows(n) + KeptRows(board)
  {
    b := board;
    n := 0;
    var y := Rows - 1;
    ghost var m: nat := Rows;
    ScanStart(board);
    while y >= 0
      invariant Scanning(board, b, n, m, y)
      decreases y + m
    {
      ScanCursor(board, b, n, m, y);
      if RowFull(b[y]) {
        ScanFullStep(board, b, n, m, y);
        b := [EmptyRow()] + b[..y] + b[y + 1..];
        n := n + 1;
        m := m - 1;
      } else {
        ScanKeptStep(board, b, n, m, y);
        if m > 0 {
          m := m - 1;
        }
        y := y - 1;
      }
    }
    ScanDone(board, b, n, m, y);
  }

    /** `moveDown` as the game runs it: a free step moves the piece down; a blocked one locks
      the piece where it stands (`g` is the locked grid) and clears the full rows, reporting
      how many were cleared. */
  method Descend(b: Grid, p: Piece) returns (after: Grid, q: Piece, locked: bool, n: nat, g: Grid)
    requires WellFormed(b) && !Collides(b, p)
    ensures WellFormed(after)
    ensures !locked ==> MoveDown(b, p) == (q, true) && after == b && n == 0
    ensures locked ==> MoveDown(b, p) == (p, false) && q == p
    ensures locked ==> LockedBy(b, p, g) && n == CountFull(g) && after == EmptyRows(n) + KeptRows(g)
  {
    var step := MoveDown(b, p);
    if step.1 {
      after, q, locked, n, g := b, step.0, false, 0, b;
    } else {
      FreeIsInBounds(b, p);
      g := LockPiece(b, p);
      after, n := CheckLines(g);
      q, locked := p, true;
      ClearedBoardShape(g);
    }
  }

  /** `hardDrop`: steps down until a step locks. The piece locks where `Board.HardDrop`
      brings it to rest, and the full rows of the locked grid are cleared. */
  method HardDropAndLock(b: Grid, p: Piece) returns (after: Grid, q: Piece, n: nat, g: Grid)
    requires WellFormed(b) && HasFilledCell(p) && !Collides(b, p)
    ensures q == HardDrop(b, p)
    ensures LockedBy(b, q, g) && n == CountFull(g) && after == EmptyRows(n) + KeptRows(g)
  {
    var i, j :| Filled(p, i, j);
    q := p;
    var locked := false;
    after, n, g := b, 0, b;
    while !locked
      invariant q.kind == p.kind && q.shape == p.shape && q.x == p.x && Filled(q, i, j)
      invariant !locked ==> !Collides(b, q) && HardDrop(b, q) == HardDrop(b, p)
      invariant locked ==> q == HardDrop(b, p) && LockedBy(b, q, g) && n == CountFull(g) &&
                           after == EmptyRows(n) + KeptRows(g)
      decreases !locked, Rows - q.y
    {
      FreeIsAboveFloor(b, q);
      var q0 := q;
      after, q, locked, n, g := Descend(b, q0);
    }
  }

/** After a clear the field is still 20 by 10, no row is full, and the top `n` rows are
      empty. */
  lemma ClearedBoardShape(board: Grid)
    requires WellFormed(board)
    ensures var n := CountFull(board);
            var b := EmptyRows(n) + KeptRows(board);
            WellFormed(b) &&
            (forall r :: 0 <= r < Rows ==> !RowFull(b[r])) &&
            (forall r, c :: 0 <= r < n && 0 <= c < Cols ==> b[r][c] == 0)
  {
    var n := CountFull(board);
    var k := KeptRows(board);
    var b := EmptyRows(n) + k;
    assert |b| == Rows;
    EmptyRowNotFull();
    KeptRowsFromBoard(board);
    forall r | 0 <= r < Rows
      ensures |b[r]| == Cols && !RowFull(b[r])
    {
      if r < n {
        assert b[r] == EmptyRow();
      } else {
        assert b[r] == k[r - n];
      }
    }
    forall r, c | 0 <= r < n && 0 <= c < Cols
      ensures b[r][c] == 0
    {
      assert b[r] == EmptyRow();
    }
  }

  /** Points for clearing 0..4 rows at once, before the level multiplier. */
  function Points(n: nat): (p: nat)
    requires n <= 4
    ensures n == 0 <==> p == 0
    ensures n > 0 ==> p >= 100 * n
  {
    [0, 100, 300, 500, 800][n]
  }

  /** Clearing rows together is worth more than clearing the same rows in two goes. */
  lemma ClearingTogetherPays(a: nat, b: nat)
    requires 0 < a && 0 < b && a + b <= 4
    ensures Points(a) + Points(b) < Points(a + b)
  {
  }

  /** The client's drop interval for a level: 100 ms faster per level, never below 100 ms. */
  function DropIntervalFor(level: int): (d: int)
    ensures d >= 100
    ensures level >= 1 ==> d <= 1000
  {
    var v := 1000 - (level - 1) * 100;
    if v > 100 then v else 100
  }

  /** The interval starts at 1000 ms on level 1, shortens by 100 ms per level, and stays at
      100 ms from level 10 on. */
  lemma DropIntervalSteps(level: int)
    ensures DropIntervalFor(1) == 1000
    ensures 1 <= level < 10 ==> DropIntervalFor(level + 1) == DropIntervalFor(level) - 100
    ensures level >= 10 ==> DropIntervalFor(level) == 100
  {
  }

  lemma DropIntervalMonotone(l1: int, l2: int)
    requires l1 <= l2
    ensures DropIntervalFor(l1) >= DropIntervalFor(l2)
  {
  }

  /** Bookkeeping after `n` rows were cleared at once. Scoring uses the level held before
      the clear; the new level is recomputed from the total line count. */
  function ApplyClear(st: Stats, interval: int, n: nat): (r: (Stats, int))
    requires n <= 4
    ensures n == 0 ==> r == (st, interval)
    ensures n > 0 ==> r.0.lines == st.lines + n
    ensures n > 0 ==> r.0.score == st.score + Points(n) * st.level
    ensures n > 0 ==> r.0.level == r.0.lines / 10 + 1 && r.1 == DropIntervalFor(r.0.level)
    ensures n > 0 ==> r.1 >= 100
  {
    if n == 0 then (st, interval)
    else
      var lines := st.lines + n;
      var level := lines / 10 + 1;
      (Stats(st.score + Points(n) * st.level, lines, level), DropIntervalFor(level))
  }

  /** Once level and line count agree, clearing never lowers the level nor slows the drop. */
  lemma ClearNeverLowersLevel(st: Stats, interval: int, n: nat)
    requires n <= 4 && st.lines >= 0 && st.level == st.lines / 10 + 1
    requires interval == DropIntervalFor(st.level)
    ensures ApplyClear(st, interval, n).0.level >= st.level
    ensures ApplyClear(st, interval, n).1 <= interval
  {
    var r := ApplyClear(st, interval, n);
    if n > 0 {
      assert r.0.lines / 10 >= st.lines / 10;
      DropIntervalMonotone(st.level, r.0.level);
    }
  }
}

=== FILE: players.dfy ===
/** The server's player registry: one record per player id, the set of taken nicknames and
    the nickname-to-email bindings, held as one immutable value. */
module Players {
  import opened Common
  import Board

  type PlayerId = string

  datatype Status = Registered | Playing | Finished

  /** A piece descriptor issued by the server: a kind and a fresh opaque id. */
  datatype ServerPiece = ServerPiece(kind: Board.Kind, id: string)

  /** The fields of a client's full-state report that the server reads. */
  datatype ClientState = ClientState(board: Option<Board.Grid>, score: int, lines: int, level: int)

  /** One finished run as appended to a player's history. */
  datatype Run = Run(score: int, startTime: Option<int>, endTime: int, duration: int)

  /** A player record. The session fields are meaningful once a game has been started; before
      that they hold defaults (false, 0, empty). Read as a flag or a count, an absent JavaScript
      field behaves like the default; an empty `pieceSequence` stands for the absent array,
      which a started game never leaves empty and which raises a TypeError when indexed.
      `speedViolations` is counted in half-units so that its decay by 0.5 stays exact. */
  datatype Player = Player(
    id: PlayerId,
    nickname: string,
    email: Option<string>,
    currentScore: int,
    highestScore: int,
    status: Status,
    gameState: Option<ClientState>,
    startTime: Option<int>,
    endTime: Option<int>,
    history: seq<Run>,
    pieceSequence: seq<ServerPiece>,
    pieceIndex: nat,
    cheatingDetected: bool,
    currentPieceStartTime: int,
    speedViolations: nat,
    pauseCount: nat,
    isPaused: bool,
    pauseStartTime: Option<int>,
    lastBoardState: Option<Board.Grid>,
    waitingCaptcha: bool,
    captchaId: Option<string>,
    captchaVerified: bool)

  /** A freshly registered player. */
  function NewPlayer(id: PlayerId, nickname: string, email: Option<string>, highestScore: int,
                     history: seq<Run>): (p: Player)
    ensures p.id == id && p.nickname == nickname && p.email == email
    ensures p.status == Registered && p.currentScore == 0 && p.highestScore == highestScore
    ensures p.history == history && !p.isPaused && !p.waitingCaptcha
  {
    Player(id, nickname, email, 0, highestScore, Registered, None, None, None, history,
           [], 0, false, 0, 0, 0, false, None, None, false, None, false)
  }

  /** The registry. `order` lists the player ids in insertion order, the order in which the
      JavaScript `Map` is iterated. */
  datatype Registry = Registry(
    players: map<PlayerId, Player>,
    order: seq<PlayerId>,
    nicknames: set<string>,
    emails: map<string, string>)

  function EmptyRegistry(): Registry
  {
    Registry(map[], [], {}, map[])
  }

  /** Failures an operation reports by throwing or by an error result. */
  datatype Error =
    | NotFound          // no player with that id
    | NotStarted        // the operation needs a game in progress
    | IdentityMismatch  // nickname bound to another email
    | DataAnomaly       // nickname taken but no player carries it
    | SpeedCheat        // too many timing violations
    | PauseCheat        // too many over-long pauses
    | BoardCheat        // a submitted board fails the structural check
    | AlreadyPaused
    | NotPaused
    | NotFinished       // only finished players may be deleted
    | NotWaiting        // no challenge is pending
    | ChallengeFailed   // the challenge answer was rejected
    | TypeFault         // the source would raise a TypeError reading a malformed board

  /** A registry operation's effect and answer; an error may still come with state changes
      (the counters a rejected request bumps). */
  datatype Outcome<T> = Outcome(reg: Registry, result: Result<T, Error>)

  /** The server always keeps at least ten unused pieces beyond the cursor of a game in
      progress, so the current and next pieces exist. */
  ghost predicate WindowOk(p: Player)
  {
    p.status == Playing ==> p.pieceIndex + 10 < |p.pieceSequence|
  }

  ghost predicate Distinct(s: seq<PlayerId>)
  {
    forall i, j :: 0 <= i < j < |s| ==> s[i] != s[j]
  }

  ghost predicate OrderMatches(reg: Registry)
  {
    && (forall i :: 0 <= i < |reg.order| ==> reg.order[i] in reg.players)
    && (forall id :: id in reg.players ==> id in reg.order)
    && Distinct(reg.order)
  }

  ghost predicate NicknamesUnique(reg: Registry)
  {
    forall a, b ::
      (a in reg.players && b in reg.players && reg.players[a].nickname == reg.players[b].nickname)
      ==> a == b
  }

  /** What the registry keeps true between operations. */
  ghost predicate Inv(reg: Registry)
  {
    && OrderMatches(reg)
    && NicknamesUnique(reg)
    && (forall id :: id in reg.players ==>
          reg.players[id].id == id && reg.players[id].nickname in reg.nicknames &&
          WindowOk(reg.players[id]))
  }

  lemma EmptyRegistryInv()
    ensures Inv(EmptyRegistry())
  {
  }

  /** Replaces the record of a known player; the insertion order is kept. */
  function Update(reg: Registry, id: PlayerId, p: Player): (r: Registry)
    requires id in reg.players
    ensures r.players == reg.players[id := p] && r.players.Keys == reg.players.Keys
    ensures r.order == reg.order && r.nicknames == reg.nicknames && r.emails == reg.emails
  {
    reg.(players := reg.players[id := p])
  }

  /** `Map.set`: a new key goes to the end of the insertion order, a known key keeps its place. */
  function Put(reg: Registry, id: PlayerId, p: Player): (r: Registry)
    ensures r.players == reg.players[id := p]
    ensures id in reg.players ==> r.order == reg.order
    ensures id !in reg.players ==> r.order == reg.order + [id]
    ensures r.nicknames == reg.nicknames && r.emails == reg.emails
  {
    Registry(reg.players[id := p], if id in reg.players then reg.order else reg.order + [id],
             reg.nicknames, reg.emails)
  }

  /** Replacing a record with one that keeps its id and nickname and still satisfies the
      window rule preserves the invariant. */
  lemma UpdatePreservesInv(reg: Registry, id: PlayerId, p: Player)
    requires Inv(reg) && id in reg.players
    requires p.id == id && p.nickname == reg.players[id].nickname && WindowOk(p)
    ensures Inv(Update(reg, id, p))
  {
  }

  /** The order without `id`. */
  function Without(order: seq<PlayerId>, id: PlayerId): (r: seq<PlayerId>)
    ensures forall x :: x in r <==> x in order && x != id
    ensures |r| <= |order|
  {
    if |order| == 0 then []
    else (if order[0] == id then [] else [order[0]]) + Without(order[1..], id)
  }

  lemma {:induction false} WithoutKeepsDistinct(order: seq<PlayerId>, id: PlayerId)
    requires Distinct(order)
    ensures Distinct(Without(order, id))
  {
    if |order| > 0 {
      WithoutKeepsDistinct(order[1..], id);
      var rest := Without(order[1..], id);
      assert order[0] !in order[1..];
      assert order[0] !in rest;
      var r := Without(order, id);
      if order[0] != id {
        assert r == [order[0]] + rest;
        forall i, j | 0 <= i < j < |r|
          ensures r[i] != r[j]
        {
          if i == 0 {
            assert r[j] == rest[j - 1];
          } else {
            assert r[i] == rest[i - 1] && r[j] == rest[j - 1];
          }
        }
      } else {
        assert r == rest;
      }
    }
  }

  /** Removing an id from two runs of ids removes it from each run, so the others keep
      their order. */
  lemma {:induction false} WithoutAppend(a: seq<PlayerId>, b: seq<PlayerId>, id: PlayerId)
    ensures Without(a + b, id) == Without(a, id) + Without(b, id)
  {
    if |a| > 0 {
      assert (a + b)[1..] == a[1..] + b;
      WithoutAppend(a[1..], b, id);
    } else {
      assert a + b == b;
    }
  }

  /** Removing an id that does not occur changes nothing. */
  lemma {:induction false} WithoutAbsent(a: seq<PlayerId>, id: PlayerId)
    requires id !in a
    ensures Without(a, id) == a
  {
    if |a| > 0 {
      assert id !in a[1..];
      WithoutAbsent(a[1..], id);
      assert a == [a[0]] + a[1..];
    }
  }

  /** Removing an id that occurs once, between two runs, joins the runs. */
  lemma WithoutGap(before: seq<PlayerId>, after: seq<PlayerId>, id: PlayerId)
    requires id !in before && id !in after
    ensures Without(before + [id] + after, id) == before + after
  {
    assert [id][1..] == [];
    assert Without([id], id) == [];
    calc {
      Without(before + [id] + after, id);
      { WithoutAppend(before + [id], after, id); }
      Without(before + [id], id) + Without(after, id);
      { WithoutAppend(before, [id], id); }
      Without(before, id) + Without([id], id) + Without(after, id);
      { WithoutAbsent(before, id); WithoutAbsent(after, id); }
      before + [] + after;
      { assert before + [] == before; }
      before + after;
    }
  }
}

=== FILE: ranking.dfy ===
/** What the server reports about players: one player's summary with its duration rule, the
    players in a game, the score board with its two views, a player's rank, and which admin
    connections receive a player's state. */
module Ranking {
  import opened Common
  import opened Players
  import Session

  /** A timestamp as a JavaScript condition reads it: absent and 0 are both false. */
  predicate Stamped(t: Option<int>)
  {
    t.Some? && t.value != 0
  }

  /** The duration rule of `getPlayerInfo` as written: a recorded end time is used whenever
      there is one, even while a later run is in progress. */
  function DurationAsWritten(p: Player, now: int): (d: Option<int>)
    ensures d.Some? <==> Stamped(p.startTime) && (Stamped(p.endTime) || p.status == Playing)
  {
    if !Stamped(p.startTime) then None
    else if Stamped(p.endTime) then Some(p.endTime.value - p.startTime.value)
    else if p.status == Playing then Some(now - p.startTime.value)
    else None
  }

  /** The duration rule with a game in progress measured from its start; otherwise as written. */
  function Duration(p: Player, now: int): (d: Option<int>)
    ensures d.Some? <==> Stamped(p.startTime) && (Stamped(p.endTime) || p.status == Playing)
    ensures p.status == Playing && Stamped(p.startTime) ==> d == Some(now - p.startTime.value)
    ensures p.status != Playing ==> d == DurationAsWritten(p, now)
  {
    if p.status == Playing && Stamped(p.startTime) then Some(now - p.startTime.value)
    else DurationAsWritten(p, now)
  }

  /** The two rules differ only for a game in progress that still carries an end time. */
  lemma DurationsDifferOnlyWhenStale(p: Player, now: int)
    ensures Duration(p, now) != DurationAsWritten(p, now) ==>
              p.status == Playing && Stamped(p.startTime) && Stamped(p.endTime)
  {
  }

  /** A run started at a nonzero time is measured from that start as long as it goes on. */
  lemma RunningDurationIsElapsed(reg: Registry, id: PlayerId, start: int, batch: seq<ServerPiece>, now: int)
    requires id in reg.players && start != 0 && |batch| == Session.InitialBatch
    ensures Duration(Session.StartGame(reg, id, start, batch).reg.players[id], now) == Some(now - start)
  {
  }

  /** Once ended, the reported duration is the one the run was archived with. */
  lemma EndedDurationMatchesHistory(reg: Registry, id: PlayerId, now: int, later: int)
    requires id in reg.players && Stamped(reg.players[id].startTime) && now != 0
    ensures var q := Session.EndGame(reg, id, now).reg.players[id];
            Duration(q, later) == Some(q.history[|q.history| - 1].duration)
  {
  }

  /** As written, a second run started without registering again reports the previous run's
      end minus the new start: a negative duration while the game is going on. */
  lemma StaleEndTimeAfterRestart(reg: Registry, id: PlayerId, batch: seq<ServerPiece>)
    requires id in reg.players && reg.players[id].startTime == Some(500)
    requires |batch| == Session.InitialBatch
    ensures var ended := Session.EndGame(reg, id, 1000).reg;
            var q := Session.StartGame(ended, id, 2000, batch).reg.players[id];
            && q.status == Playing
            && DurationAsWritten(q, 3000) == Some(-1000)
            && Duration(q, 3000) == Some(1000)
  {
  }

  /** The summary `getPlayerInfo` returns. */
  datatype Info = Info(id: PlayerId, nickname: string, currentScore: int, highestScore: int,
                       status: Status, startTime: Option<int>, endTime: Option<int>,
                       duration: Option<int>)

  function InfoOf(p: Player, now: int): (i: Info)
    ensures i.id == p.id && i.nickname == p.nickname && i.status == p.status
    ensures i.currentScore == p.currentScore && i.highestScore == p.highestScore
    ensures i.duration == Duration(p, now)
  {
    Info(p.id, p.nickname, p.currentScore, p.highestScore, p.status, p.startTime, p.endTime,
         Duration(p, now))
  }

  function GetPlayerInfo(reg: Registry, id: PlayerId, now: int): (r: Option<Info>)
    ensures r.Some? <==> id in reg.players
    ensures r.Some? ==> r.value == InfoOf(reg.players[id], now)
    ensures r.Some? && !(reg.players[id].status == Playing && Stamped(reg.players[id].endTime)) ==>
              r.value.duration == DurationAsWritten(reg.players[id], now)
  {
    if id in reg.players then Some(InfoOf(reg.players[id], now)) else None
  }

  /** The ids in `ids` of players in a game, in the same order. */
  function PlayingIds(reg: Registry, ids: seq<PlayerId>): (r: seq<PlayerId>)
    ensures forall id :: id in r <==> id in ids && id in reg.players && reg.players[id].status == Playing
    ensures |r| <= |ids|
    ensures Distinct(ids) ==> Distinct(r)
  {
    if |ids| == 0 then []
    else
      var rest := PlayingIds(reg, ids[1..]);
      assert forall id :: id in ids[1..] ==> id in ids;
      if ids[0] in reg.players && reg.players[ids[0]].status == Playing then
        assert Distinct(ids) ==> ids[0] !in ids[1..];
        [ids[0]] + rest
      else rest
  }

  /** The players in a game among two runs of ids are those of the first run followed by
      those of the second. */
  lemma {:induction false} PlayingIdsAppend(reg: Registry, a: seq<PlayerId>, b: seq<PlayerId>)
    ensures PlayingIds(reg, a + b) == PlayingIds(reg, a) + PlayingIds(reg, b)
  {
    if |a| > 0 {
      assert (a + b)[1..] == a[1..] + b;
      PlayingIdsAppend(reg, a[1..], b);
    } else {
      assert a + b == b;
    }
  }

  /** `getPlayingPlayers`: a summary of every player in a game, in registration order. */
  function PlayingPlayers(reg: Registry, now: int): (r: seq<Info>)
    ensures var ids := PlayingIds(reg, reg.order);
            |r| == |ids| && forall i :: 0 <= i < |r| ==> r[i] == InfoOf(reg.players[ids[i]], now)
    ensures var ids := PlayingIds(reg, reg.order);
            forall i :: 0 <= i < |r| && !Stamped(reg.players[ids[i]].endTime) ==>
              r[i].duration == DurationAsWritten(reg.players[ids[i]], now)
  {
    var ids := PlayingIds(reg, reg.order);
    seq(|ids|, i requires 0 <= i < |ids| => InfoOf(reg.players[ids[i]], now))
  }

  /** In a consistent registry the list names every player in a game exactly once. */
  lemma PlayingPlayersComplete(reg: Registry, now: int)
    requires Inv(reg)
    ensures var r := PlayingPlayers(reg, now);
            && (forall id :: id in reg.players && reg.players[id].status == Playing ==>
                  InfoOf(reg.players[id], now) in r)
            && (forall i :: 0 <= i < |r| ==> r[i].status == Playing)
            && (forall i, j :: 0 <= i < j < |r| ==> r[i].id != r[j].id)
  {
    var ids := PlayingIds(reg, reg.order);
    var r := PlayingPlayers(reg, now);
    forall id | id in reg.players && reg.players[id].status == Playing
      ensures InfoOf(reg.players[id], now) in r
    {
      var i :| 0 <= i < |ids| && ids[i] == id;
      assert r[i] == InfoOf(reg.players[id], now);
    }
    forall i, j | 0 <= i < j < |r|
      ensures r[i].id != r[j].id
    {
      assert ids[i] != ids[j];
      assert r[i].id == ids[i] && r[j].id == ids[j];
    }
  }

  /** One line of the score board. `isCurrent` tells the live-score line of a game in progress
      (id suffix `_current`) from the best-score line (id suffix `_highest`). */
  datatype Entry = Entry(playerId: PlayerId, nickname: string, score: int, currentScore: int,
                         highestScore: int, status: Status, isCurrent: bool,
                         duration: Option<int>)

  function CurrentEntry(p: Player, now: int): (e: Entry)
    ensures e.isCurrent && e.status == Playing && e.score == p.currentScore
  {
    Entry(p.id, p.nickname, p.currentScore, p.currentScore, p.highestScore, Playing, true,
          if Stamped(p.startTime) then Some(now - p.startTime.value) else None)
  }

  function HighestEntry(p: Player): (e: Entry)
    ensures !e.isCurrent && e.status == p.status && e.score == p.highestScore
  {
    Entry(p.id, p.nickname, p.highestScore, p.currentScore, p.highestScore, p.status, false,
          if p.status == Finished && Stamped(p.startTime) && Stamped(p.endTime)
          then Some(p.endTime.value - p.startTime.value) else None)
  }

  /** A player's lines: the live score while playing, the best score once above zero. */
  function EntriesOf(p: Player, now: int): (s: seq<Entry>)
    ensures CurrentEntry(p, now) in s <==> p.status == Playing
    ensures HighestEntry(p) in s <==> p.highestScore > 0
    ensures forall e :: e in s ==> e == CurrentEntry(p, now) || e == HighestEntry(p)
  {
    (if p.status == Playing then [CurrentEntry(p, now)] else []) +
    (if p.highestScore > 0 then [HighestEntry(p)] else [])
  }

  /** The unsorted lines of the players in `ids`, in that order. */
  function Collect(reg: Registry, ids: seq<PlayerId>, now: int): (s: seq<Entry>)
    ensures forall id :: id in ids && id in reg.players ==>
              forall e :: e in EntriesOf(reg.players[id], now) ==> e in s
    ensures forall e :: e in s ==>
              exists id :: id in ids && id in reg.players && e in EntriesOf(reg.players[id], now)
  {
    if |ids| == 0 then []
    else
      var rest := Collect(reg, ids[1..], now);
      assert forall id :: id in ids[1..] ==> id in ids;
      assert forall id :: id in ids ==> id == ids[0] || id in ids[1..];
      (if ids[0] in reg.players then EntriesOf(reg.players[ids[0]], now) else []) + rest
  }

  /** Collecting over two runs of ids is collecting over each, one after the other: the lines
      follow the order of the ids. */
  lemma {:induction false} CollectAppend(reg: Registry, a: seq<PlayerId>, b: seq<PlayerId>, now: int)
    ensures Collect(reg, a + b, now) == Collect(reg, a, now) + Collect(reg, b, now)
  {
    if |a| == 0 {
      assert a + b == b;
    } else {
      assert (a + b)[0] == a[0];
      assert (a + b)[1..] == a[1..] + b;
      CollectAppend(reg, a[1..], b, now);
    }
  }

  ghost predicate Descending(s: seq<Entry>)
  {
    forall i, j :: 0 <= i < j < |s| ==> s[i].score >= s[j].score
  }

  /** The lines of `s` with score `k`, in order. */
  function WithScore(s: seq<Entry>, k: int): (r: seq<Entry>)
  {
    if |s| == 0 then []
    else (if s[0].score == k then [s[0]] else []) + WithScore(s[1..], k)
  }

  lemma {:induction false} WithScoreAppend(a: seq<Entry>, b: seq<Entry>, k: int)
    ensures WithScore(a + b, k) == WithScore(a, k) + WithScore(b, k)
  {
    if |a| > 0 {
      assert (a + b)[1..] == a[1..] + b;
      WithScoreAppend(a[1..], b, k);
    } else {
      assert a + b == b;
    }
  }

  lemma {:induction false} WithScoreNone(s: seq<Entry>, k: int)
    requires forall i :: 0 <= i < |s| ==> s[i].score < k
    ensures WithScore(s, k) == []
  {
    if |s| > 0 {
      WithScoreNone(s[1..], k);
    }
  }

  /** Places `e` after every line scoring at least as much, before the first scoring less. */
  function Insert(s: seq<Entry>, e: Entry): (r: seq<Entry>)
    ensures |r| == |s| + 1
  {
    if |s| == 0 then [e]
    else if s[0].score >= e.score then [s[0]] + Insert(s[1..], e)
    else [e] + s
  }

  /** Inserting adds exactly the one line and loses none. */
  lemma {:induction false} InsertPermutes(s: seq<Entry>, e: Entry)
    ensures multiset(Insert(s, e)) == multiset(s) + multiset{e}
  {
    if |s| > 0 && s[0].score >= e.score {
      InsertPermutes(s[1..], e);
      assert s == [s[0]] + s[1..];
    }
  }

  lemma {:induction false} InsertDescending(s: seq<Entry>, e: Entry)
    requires Descending(s)
    ensures Descending(Insert(s, e))
  {
    if |s| > 0 && s[0].score >= e.score {
      var tail := Insert(s[1..], e);
      DescendingTail(s);
      InsertDescending(s[1..], e);
      InsertPermutes(s[1..], e);
      forall i | 0 <= i < |tail|
        ensures s[0].score >= tail[i].score
      {
        assert tail[i] in multiset(s[1..]) + multiset{e};
        if tail[i] != e {
          assert tail[i] in s[1..];
        }
      }
      assert Insert(s, e) == [s[0]] + tail;
    }
  }

  lemma WithScoreCons(x: Entry, t: seq<Entry>, k: int)
    ensures WithScore([x] + t, k) == (if x.score == k then [x] else []) + WithScore(t, k)
  {
    assert ([x] + t)[1..] == t;
  }

  lemma DescendingTail(s: seq<Entry>)
    requires Descending(s) && |s| > 0
    ensures Descending(s[1..])
    ensures forall i :: 0 <= i < |s| ==> s[i].score <= s[0].score
  {
    forall i, j | 0 <= i < j < |s[1..]| ensures s[1..][i].score >= s[1..][j].score {
      assert s[1..][i] == s[i + 1] && s[1..][j] == s[j + 1];
    }
  }

  lemma {:induction false} InsertStable(s: seq<Entry>, e: Entry, k: int)
    requires Descending(s)
    ensures WithScore(Insert(s, e), k) == WithScore(s, k) + (if e.score == k then [e] else [])
  {
    var mine := if e.score == k then [e] else [];
    if |s| == 0 {
      WithScoreCons(e, [], k);
    } else if s[0].score >= e.score {
      var head := if s[0].score == k then [s[0]] else [];
      var tail := Insert(s[1..], e);
      DescendingTail(s);
      InsertStable(s[1..], e, k);
      assert Insert(s, e) == [s[0]] + tail;
      WithScoreCons(s[0], tail, k);
      WithScoreCons(s[0], s[1..], k);
      assert s == [s[0]] + s[1..];
      calc {
        WithScore(Insert(s, e), k);
        head + WithScore(tail, k);
        head + (WithScore(s[1..], k) + mine);
        (head + WithScore(s[1..], k)) + mine;
        WithScore(s, k) + mine;
      }
    } else {
      assert Insert(s, e) == [e] + s;
      WithScoreCons(e, s, k);
      if e.score == k {
        DescendingTail(s);
        WithScoreNone(s, k);
      }
    }
  }

  /** The stable sort by descending score that `Array.prototype.sort` performs with the
      comparator `b.score - a.score`. */
  function SortByScore(s: seq<Entry>): (r: seq<Entry>)
    ensures Descending(r)
    ensures multiset(r) == multiset(s)
    ensures |r| == |s|
  {
    if |s| == 0 then []
    else
      assert s == s[..|s| - 1] + [s[|s| - 1]];
      var front := SortByScore(s[..|s| - 1]);
      InsertDescending(front, s[|s| - 1]);
      InsertPermutes(front, s[|s| - 1]);
      Insert(front, s[|s| - 1])
  }

  /** Lines with equal scores keep their original relative order. */
  lemma {:induction false} SortIsStable(s: seq<Entry>, k: int)
    ensures WithScore(SortByScore(s), k) == WithScore(s, k)
  {
    if |s| > 0 {
      SortIsStable(s[..|s| - 1], k);
      SortStableStep(s, k);
    }
  }

  /** Sorting one more line keeps the lines of score `k` in order, given that sorting the
      lines before it does. */
  lemma SortStableStep(s: seq<Entry>, k: int)
    requires |s| > 0
    requires WithScore(SortByScore(s[..|s| - 1]), k) == WithScore(s[..|s| - 1], k)
    ensures WithScore(SortByScore(s), k) == WithScore(s, k)
  {
    var front := s[..|s| - 1];
    var last := s[|s| - 1];
    var sorted := SortByScore(front);
    var extra := if last.score == k then [last] else [];
    calc {
      WithScore(SortByScore(s), k);
      WithScore(Insert(sorted, last), k);
      { InsertStable(sorted, last, k); }
      WithScore(sorted, k) + extra;
      WithScore(front, k) + extra;
      { assert WithScore([last], k) == extra + WithScore([], k); }
      WithScore(front, k) + WithScore([last], k);
      { WithScoreSnoc(s, k); }
      WithScore(s, k);
    }
  }

  lemma WithScoreSnoc(s: seq<Entry>, k: int)
    requires |s| > 0
    ensures WithScore(s, k) == WithScore(s[..|s| - 1], k) + WithScore([s[|s| - 1]], k)
  {
    assert s == s[..|s| - 1] + [s[|s| - 1]];
    WithScoreAppend(s[..|s| - 1], [s[|s| - 1]], k);
  }

  /** The lines of `s` that satisfy `keep`, in order. */
  function Filter(s: seq<Entry>, keep: Entry -> bool): (r: seq<Entry>)
    ensures forall e :: e in r <==> e in s && keep(e)
    ensures |r| <= |s|
    ensures Descending(s) ==> Descending(r)
  {
    if |s| == 0 then []
    else
      var rest := Filter(s[1..], keep);
      assert forall e :: e in s <==> e == s[0] || e in s[1..];
      if keep(s[0]) then
        assert Descending(s) ==> forall i :: 0 <= i < |rest| ==> s[0].score >= rest[i].score by {
          if Descending(s) {
            forall i | 0 <= i < |rest| ensures s[0].score >= rest[i].score {
              assert rest[i] in s[1..];
            }
          }
        }
        [s[0]] + rest
      else rest
  }

  /** Filtering keeps the order: filtering two runs of lines is filtering each in turn. */
  lemma {:induction false} FilterAppend(a: seq<Entry>, b: seq<Entry>, keep: Entry -> bool)
    ensures Filter(a + b, keep) == Filter(a, keep) + Filter(b, keep)
  {
    if |a| == 0 {
      assert a + b == b;
    } else {
      assert (a + b)[0] == a[0];
      assert (a + b)[1..] == a[1..] + b;
      FilterAppend(a[1..], b, keep);
    }
  }

  predicate InPlayingView(e: Entry)
  {
    e.status == Playing
  }

  /** The finished view also takes the best-score line of a player still in a game. */
  predicate InFinishedView(e: Entry)
  {
    e.status == Finished || (e.status == Playing && !e.isCurrent)
  }

  datatype Standings = Standings(playing: seq<Entry>, finished: seq<Entry>, all: seq<Entry>)

  /** `getLeaderboard`. */
  function Leaderboard(reg: Registry, now: int): (b: Standings)
    ensures Descending(b.all) && Descending(b.playing) && Descending(b.finished)
    ensures multiset(b.all) == multiset(Collect(reg, reg.order, now))
    ensures forall e :: e in b.playing <==> e in b.all && InPlayingView(e)
    ensures forall e :: e in b.finished <==> e in b.all && InFinishedView(e)
    ensures forall k :: WithScore(b.all, k) == WithScore(Collect(reg, reg.order, now), k)
  {
    var lines := Collect(reg, reg.order, now);
    var all := SortByScore(lines);
    assert forall k :: WithScore(all, k) == WithScore(lines, k) by {
      forall k
        ensures WithScore(all, k) == WithScore(lines, k)
      {
        SortIsStable(lines, k);
      }
    }
    Standings(Filter(all, InPlayingView), Filter(all, InFinishedView), all)
  }

  /** In a consistent registry the board holds a live line for each player in a game, a best
      line for each player above zero, and nothing else. */
  lemma LeaderboardContents(reg: Registry, now: int)
    requires Inv(reg)
    ensures var all := Leaderboard(reg, now).all;
            && (forall id :: id in reg.players && reg.players[id].status == Playing ==>
                  CurrentEntry(reg.players[id], now) in all)
            && (forall id :: id in reg.players && reg.players[id].highestScore > 0 ==>
                  HighestEntry(reg.players[id]) in all)
            && (forall e :: e in all ==>
                  exists id :: id in reg.players && e in EntriesOf(reg.players[id], now))
  {
    var all := Leaderboard(reg, now).all;
    var c := Collect(reg, reg.order, now);
    assert forall e :: e in all <==> e in c by {
      forall e ensures e in all <==> e in c {
        assert e in all <==> e in multiset(all);
        assert e in c <==> e in multiset(c);
      }
    }
  }

  /** A registered player with a best score shows only in the full list; a player in a game
      with a best score shows in both views. */
  lemma ViewsOfBestLine(reg: Registry, id: PlayerId, now: int)
    requires Inv(reg) && id in reg.players && reg.players[id].highestScore > 0
    ensures var b := Leaderboard(reg, now);
            var e := HighestEntry(reg.players[id]);
            && e in b.all
            && (reg.players[id].status == Registered ==> e !in b.playing && e !in b.finished)
            && (reg.players[id].status == Playing ==> e in b.playing && e in b.finished)
  {
    LeaderboardContents(reg, now);
  }

  /** Index of the first line with the nickname, or -1 (`findIndex`). */
  function FindNickname(s: seq<Entry>, nickname: string): (r: int)
    ensures -1 <= r < |s|
    ensures r >= 0 ==> s[r].nickname == nickname
    ensures forall i :: 0 <= i < |s| && (r == -1 || i < r) ==> s[i].nickname != nickname
  {
    if |s| == 0 then -1
    else if s[0].nickname == nickname then 0
    else
      var r := FindNickname(s[1..], nickname);
      if r == -1 then -1 else r + 1
  }

  /** `getPlayerRank`: one past the first board line with the player's nickname, 0 when the
      player has no line, nothing for an unknown id. */
  function PlayerRank(reg: Registry, id: PlayerId, now: int): (r: Option<nat>)
    ensures r.Some? <==> id in reg.players
    ensures r.Some? ==>
              var all := Leaderboard(reg, now).all;
              var nick := reg.players[id].nickname;
              && r.value <= |all|
              && (r.value == 0 <==> forall e :: e in all ==> e.nickname != nick)
              && (r.value > 0 ==> all[r.value - 1].nickname == nick &&
                                  forall i :: 0 <= i < r.value - 1 ==> all[i].nickname != nick)
  {
    if id !in reg.players then None
    else
      var all := Leaderboard(reg, now).all;
      Some(FindNickname(all, reg.players[id].nickname) + 1)
  }

  /** Every line above a player's rank scores at least as much as the player's best line. */
  lemma RankReflectsScore(reg: Registry, id: PlayerId, now: int)
    requires id in reg.players
    ensures var r := PlayerRank(reg, id, now).value;
            var all := Leaderboard(reg, now).all;
            r > 0 ==> forall i :: 0 <= i < r - 1 ==> all[i].score >= all[r - 1].score
  {
  }

  /** A player in a game, or one with a best score above zero, is ranked. */
  lemma ListedPlayersAreRanked(reg: Registry, id: PlayerId, now: int)
    requires Inv(reg) && id in reg.players
    requires reg.players[id].status == Playing || reg.players[id].highestScore > 0
    ensures PlayerRank(reg, id, now).value > 0
  {
    LeaderboardContents(reg, now);
    var p := reg.players[id];
    var all := Leaderboard(reg, now).all;
    if p.status == Playing {
      assert CurrentEntry(p, now) in all;
    } else {
      assert HighestEntry(p) in all;
    }
  }

  /** An admin connection: whether its socket is open and which players it follows. */
  datatype AdminConn = AdminConn(open: bool, subscribed: Option<set<PlayerId>>)

  predicate Follows(a: AdminConn, id: PlayerId)
  {
    a.open && a.subscribed.Some? && id in a.subscribed.value
  }

  /** The connections `broadcastPlayerGameState` sends a player's state to, in order. */
  function GameStateRecipients(admins: seq<AdminConn>, id: PlayerId): (r: seq<AdminConn>)
    ensures forall a :: a in r <==> a in admins && Follows(a, id)
    ensures forall a :: multiset(r)[a] == if Follows(a, id) then multiset(admins)[a] else 0
    ensures |r| <= |admins|
  {
    if |admins| == 0 then []
    else
      var rest := GameStateRecipients(admins[1..], id);
      assert forall a :: a in admins <==> a == admins[0] || a in admins[1..];
      assert admins == [admins[0]] + admins[1..];
      if Follows(admins[0], id) then [admins[0]] + rest else rest
  }

  /** The recipients among two runs of connections are those of the first run followed by
      those of the second, so sends follow the connections' order. */
  lemma {:induction false} GameStateRecipientsAppend(a: seq<AdminConn>, b: seq<AdminConn>, id: PlayerId)
    ensures GameStateRecipients(a + b, id) == GameStateRecipients(a, id) + GameStateRecipients(b, id)
  {
    if |a| > 0 {
      assert (a + b)[1..] == a[1..] + b;
      GameStateRecipientsAppend(a[1..], b, id);
    } else {
      assert a + b == b;
    }
  }
}

=== FILE: routes.dfy ===
/** The request handlers that chain registry operations: a piece request or a state report
    may end in a challenge, and a player's socket closing ends a game in progress. */
module Routes {
  import opened Common
  import opened Players
  import Captcha
  import Session
  import Validation
  import Challenge

  /** The random inputs of one possible challenge: the draw compared with the trigger
      probability, the id the challenge would get and the code's character draws. */
  datatype Draw = Draw(sample: real, challengeId: string, codeDraws: seq<nat>)

  predicate DrawOk(d: Draw)
  {
    |d.codeDraws| == Captcha.CodeLength && forall i :: 0 <= i < |d.codeDraws| ==> d.codeDraws[i] < |Captcha.Chars|
  }

  /** Challenges the player if the draw says so. */
  function MaybeChallenge(w: Challenge.World, id: PlayerId, d: Draw, now: int): (r: Challenge.World)
    requires DrawOk(d)
    ensures r.reg.players.Keys == w.reg.players.Keys
    ensures !Challenge.ShouldTriggerFor(w.reg, id, d.sample) ==> r == w
    ensures Challenge.ShouldTriggerFor(w.reg, id, d.sample) ==>
              r.reg.players[id].waitingCaptcha && r.reg.players[id].captchaId == Some(d.challengeId) &&
              d.challengeId in r.store
  {
    if Challenge.ShouldTriggerFor(w.reg, id, d.sample) then
      Challenge.PauseForCaptcha(w, id, d.challengeId, d.codeDraws, now).0
    else w
  }

  /** `after` is `before` with player `id` waiting on challenge `d.challengeId`, which the
      store now holds for that player until two minutes from `now`. */
  ghost predicate Challenged(before: Challenge.World, after: Challenge.World, id: PlayerId, d: Draw, now: int)
  {
    && id in before.reg.players
    && after.reg == Update(before.reg, id, before.reg.players[id].(waitingCaptcha := true,
                                                                    captchaId := Some(d.challengeId)))
    && d.challengeId in after.store
    && after.store[d.challengeId].playerId == id
    && after.store[d.challengeId].expiresAt == now + Captcha.ExpirationTime
  }

  /** `POST /api/game/next-piece`: hand out the next piece, then maybe challenge. The answer is
      the registry's; a failed request never challenges, and a challenge touches only the
      requesting player's two challenge fields and the store. */
  function NextPieceRoute(w: Challenge.World, id: PlayerId, now: int, refill: seq<ServerPiece>, d: Draw)
    : (r: (Challenge.World, Result<Session.NextPiece, Error>))
    requires |refill| == Session.RefillBatch && DrawOk(d)
    ensures var served := Session.GetNextPiece(w.reg, id, now, refill);
            var after := Challenge.World(served.reg, w.store);
            && r.1 == served.result
            && r.0.reg.players.Keys == w.reg.players.Keys
            && (r.1.Err? || !Challenge.ShouldTriggerFor(served.reg, id, d.sample) ==> r.0 == after)
            && (r.1.Ok? && Challenge.ShouldTriggerFor(served.reg, id, d.sample) ==>
                  Challenged(after, r.0, id, d, now))
            && (r.0.store != w.store ==> r.1.Ok? && r.0.reg.players[id].waitingCaptcha)
  {
    var served := Session.GetNextPiece(w.reg, id, now, refill);
    if served.result.Err? then (Challenge.World(served.reg, w.store), served.result)
    else (MaybeChallenge(Challenge.World(served.reg, w.store), id, d, now), served.result)
  }

  /** A piece request, challenged or not, keeps the registry invariant. */
  lemma NextPieceRouteKeepsInv(w: Challenge.World, id: PlayerId, now: int, refill: seq<ServerPiece>, d: Draw)
    requires Inv(w.reg) && |refill| == Session.RefillBatch && DrawOk(d)
    ensures Inv(NextPieceRoute(w, id, now, refill, d).0.reg)
  {
    var served := Session.GetNextPiece(w.reg, id, now, refill);
    Session.NextPieceWithinWindow(w.reg, id, now, refill);
    Challenge.ChallengePreservesInv(Challenge.World(served.reg, w.store), id, d.challengeId, d.codeDraws, "", now);
  }

  /** `POST /api/game/update`: store the report, then maybe challenge when the report says
      lines have been cleared. A failed report, or one without cleared lines, never
      challenges. */
  function UpdateRoute(w: Challenge.World, id: PlayerId, gs: ClientState, now: int, d: Draw)
    : (r: (Challenge.World, Result<Player, Error>))
    requires DrawOk(d)
    ensures var stored := Validation.UpdateGameState(w.reg, id, gs);
            var after := Challenge.World(stored.reg, w.store);
            var challenged := r.1.Ok? && gs.lines > 0 && Challenge.ShouldTriggerFor(stored.reg, id, d.sample);
            && r.1 == stored.result
            && r.0.reg.players.Keys == w.reg.players.Keys
            && (!challenged ==> r.0 == after)
            && (challenged ==> Challenged(after, r.0, id, d, now))
            && (r.0.store != w.store ==> r.1.Ok? && gs.lines > 0 && r.0.reg.players[id].waitingCaptcha)
  {
    var stored := Validation.UpdateGameState(w.reg, id, gs);
    if stored.result.Err? then (Challenge.World(stored.reg, w.store), stored.result)
    else if gs.lines > 0 then
      (MaybeChallenge(Challenge.World(stored.reg, w.store), id, d, now), stored.result)
    else (Challenge.World(stored.reg, w.store), stored.result)
  }

  /** A state report, challenged or not, keeps the registry invariant. */
  lemma UpdateRouteKeepsInv(w: Challenge.World, id: PlayerId, gs: ClientState, now: int, d: Draw)
    requires Inv(w.reg) && DrawOk(d)
    ensures Inv(UpdateRoute(w, id, gs, now, d).0.reg)
  {
    var stored := Validation.UpdateGameState(w.reg, id, gs);
    Validation.UpdateGameStatePreservesInv(w.reg, id, gs);
    Challenge.ChallengePreservesInv(Challenge.World(stored.reg, w.store), id, d.challengeId, d.codeDraws, "", now);
  }

  /** A player's socket closing: a game in progress is ended, nothing else changes. */
  function Disconnect(reg: Registry, id: PlayerId, now: int): (r: Registry)
    ensures r.players.Keys == reg.players.Keys
    ensures id in r.players ==> r.players[id].status != Playing
    ensures !(id in reg.players && reg.players[id].status == Playing) ==> r == reg
    ensures id in reg.players && reg.players[id].status == Playing ==>
              r == Session.EndGame(reg, id, now).reg
  {
    if id in reg.players && reg.players[id].status == Playing then Session.EndGame(reg, id, now).reg
    else reg
  }

  /** A disconnect archives the interrupted game exactly once. */
  lemma DisconnectArchivesOnce(reg: Registry, id: PlayerId, now: int, later: int)
    requires id in reg.players && reg.players[id].status == Playing
    ensures var r := Disconnect(reg, id, now);
            && |r.players[id].history| == |reg.players[id].history| + 1
            && Disconnect(r, id, later) == r
  {
  }
}

=== FILE: session.dfy ===
/** A player's game session on the server: starting a run with a fresh piece sequence,
    handing out pieces under the fall-time rules, pausing and resuming, ending the run. */
module Session {
  import opened Common
  import opened Players
  import Board
  import Difficulty

  const InitialBatch := 50
  const RefillBatch := 20
  /** Pieces the client sees ahead at the start of a run. */
  const VisibleWindow := 10

  /** What `startGame` hands back: the first pieces and the starting tier. */
  datatype StartInfo = StartInfo(pieces: seq<ServerPiece>, dropInterval: int, level: int, name: string)

  function InitialClientState(): (c: ClientState)
    ensures c.board == Some(Board.InitBoard()) && c.score == 0 && c.lines == 0 && c.level == 1
  {
    ClientState(Some(Board.InitBoard()), 0, 0, Difficulty.Levels[0].level)
  }

  /** Starts a run. `batch` is the 50 pieces the generator produced. Nothing about the
      previous run's status is checked; the end time and any pending challenge are kept. */
  function StartGame(reg: Registry, id: PlayerId, now: int, batch: seq<ServerPiece>)
    : (r: Outcome<StartInfo>)
    requires |batch| == InitialBatch
    ensures r.reg.players.Keys == reg.players.Keys
    ensures id !in reg.players ==> r == Outcome(reg, Err(NotFound))
    ensures id in reg.players ==>
              var p := reg.players[id];
              var q := r.reg.players[id];
              && r.reg == Update(reg, id, q)
              && q.status == Playing && q.startTime == Some(now) && q.currentScore == 0
              && q.pieceSequence == batch && q.pieceIndex == 0 && !q.cheatingDetected
              && q.currentPieceStartTime == now && q.speedViolations == 0 && q.pauseCount == 0
              && !q.isPaused && q.pauseStartTime.None?
              && q.lastBoardState == Some(Board.InitBoard())
              && q.gameState == Some(InitialClientState())
              && q.id == p.id && q.nickname == p.nickname && q.email == p.email
              && q.highestScore == p.highestScore && q.history == p.history
              && q.endTime == p.endTime
              && q.waitingCaptcha == p.waitingCaptcha && q.captchaId == p.captchaId
              && r.result == Ok(StartInfo(batch[..VisibleWindow], 1000, 1, Difficulty.Levels[0].name))
  {
    if id !in reg.players then Outcome(reg, Err(NotFound))
    else
      var p := reg.players[id];
      var d := Difficulty.DifficultyByScore(0);
      var q := p.(status := Playing, startTime := Some(now), currentScore := 0,
                  pieceSequence := batch, pieceIndex := 0, cheatingDetected := false,
                  currentPieceStartTime := now, speedViolations := 0, pauseCount := 0,
                  isPaused := false, pauseStartTime := None,
                  gameState := Some(InitialClientState()),
                  lastBoardState := Some(Board.InitBoard()));
      Outcome(Update(reg, id, q), Ok(StartInfo(batch[..VisibleWindow], d.interval, d.level, d.name)))
  }

  lemma StartPreservesInv(reg: Registry, id: PlayerId, now: int, batch: seq<ServerPiece>)
    requires Inv(reg) && |batch| == InitialBatch
    ensures Inv(StartGame(reg, id, now, batch).reg)
  {
    if id in reg.players {
      UpdatePreservesInv(reg, id, StartGame(reg, id, now, batch).reg.players[id]);
    }
  }

  /** What `getNextPiece` hands back. A piece past the end of the sequence would be
      `undefined`; under the window rule both exist (`NextPieceWithinWindow`). */
  datatype NextPiece = NextPiece(current: Option<ServerPiece>, next: Option<ServerPiece>,
                                 pieceIndex: nat, dropInterval: int, level: int, name: string)

  function At(s: seq<ServerPiece>, i: nat): (r: Option<ServerPiece>)
    ensures r.Some? <==> i < |s|
    ensures i < |s| ==> r.value == s[i]
  {
    if i < |s| then Some(s[i]) else None
  }

  /** Time charged to the current piece: none while paused (the timer is re-stamped). */
  function Elapsed(p: Player, now: int): int
  {
    if p.isPaused then 0 else now - p.currentPieceStartTime
  }

  /** The counters after one advance whose piece was active for `fallTime` ms: a rejected
      time raises `speedViolations` by one whole unit and, past the pause limit, `pauseCount`
      by one; an accepted time lets `speedViolations` decay by half a unit towards 0. The
      error says which limit was hit. */
  datatype Charge = Charge(violations: nat, pauses: nat, cheating: bool, failure: Option<Error>)

  function ChargeFor(p: Player, fallTime: int): (c: Charge)
    ensures fallTime <= Difficulty.MaxPauseTime ==>
              c.failure.None? && c.pauses == p.pauseCount && c.cheating == p.cheatingDetected &&
              c.violations == (if p.speedViolations > 0 then p.speedViolations - 1 else 0)
    ensures fallTime > Difficulty.MaxPauseTime ==> c.violations == p.speedViolations + 2
    ensures fallTime > Difficulty.MaxPauseTime && p.speedViolations + 2 >= 2 * Difficulty.SuspiciousCount ==>
              c.failure == Some(SpeedCheat) && c.cheating && c.pauses == p.pauseCount
    ensures fallTime > Difficulty.MaxPauseTime && p.speedViolations + 2 < 2 * Difficulty.SuspiciousCount ==>
              c.pauses == p.pauseCount + 1 &&
              (c.failure.Some? <==> c.pauses > Difficulty.PauseTolerance) &&
              (c.failure.Some? ==> c.failure == Some(PauseCheat) && c.cheating) &&
              (c.failure.None? ==> c.cheating == p.cheatingDetected)
  {
    var check := Difficulty.ValidateFallTime(fallTime, p.currentScore);
    if !check.valid then
      var v: nat := p.speedViolations + 2;
      if v >= 2 * Difficulty.SuspiciousCount then Charge(v, p.pauseCount, true, Some(SpeedCheat))
      else if check.severity == Difficulty.High && fallTime > Difficulty.MaxPauseTime then
        if p.pauseCount + 1 > Difficulty.PauseTolerance then Charge(v, p.pauseCount + 1, true, Some(PauseCheat))
        else Charge(v, p.pauseCount + 1, p.cheatingDetected, None)
      else Charge(v, p.pauseCount, p.cheatingDetected, None)
    else if p.speedViolations > 0 then
      Charge(if p.speedViolations - 1 > 0 then p.speedViolations - 1 else 0, p.pauseCount,
             p.cheatingDetected, None)
    else Charge(p.speedViolations, p.pauseCount, p.cheatingDetected, None)
  }

  /** One advance's timing check on the player record: a paused timer is re-stamped first,
      then the counters are charged for the time since the piece started. */
  function Timing(p: Player, now: int): (r: (Player, Option<Error>))
    ensures r.0 == p.(speedViolations := r.0.speedViolations, pauseCount := r.0.pauseCount,
                      cheatingDetected := r.0.cheatingDetected,
                      currentPieceStartTime := r.0.currentPieceStartTime)
    ensures r.0.currentPieceStartTime == (if p.isPaused then now else p.currentPieceStartTime)
    ensures Elapsed(p, now) <= Difficulty.MaxPauseTime ==>
              r.1.None? && r.0.pauseCount == p.pauseCount &&
              r.0.cheatingDetected == p.cheatingDetected &&
              r.0.speedViolations == (if p.speedViolations > 0 then p.speedViolations - 1 else 0)
    ensures Elapsed(p, now) > Difficulty.MaxPauseTime ==>
              r.0.speedViolations == p.speedViolations + 2
    ensures Elapsed(p, now) > Difficulty.MaxPauseTime && p.speedViolations + 2 >= 2 * Difficulty.SuspiciousCount ==>
              r.1 == Some(SpeedCheat) && r.0.cheatingDetected && r.0.pauseCount == p.pauseCount
    ensures Elapsed(p, now) > Difficulty.MaxPauseTime && p.speedViolations + 2 < 2 * Difficulty.SuspiciousCount ==>
              r.0.pauseCount == p.pauseCount + 1 &&
              (r.1.Some? <==> r.0.pauseCount > Difficulty.PauseTolerance) &&
              (r.1.Some? ==> r.1 == Some(PauseCheat) && r.0.cheatingDetected) &&
              (r.1.None? ==> r.0.cheatingDetected == p.cheatingDetected)
  {
    var start := if p.isPaused then now else p.currentPieceStartTime;
    var c := ChargeFor(p, now - start);
    (p.(speedViolations := c.violations, pauseCount := c.pauses, cheatingDetected := c.cheating,
        currentPieceStartTime := start), c.failure)
  }

  /** Hands out the next piece. `refill` is the batch of 20 the generator would produce if
      fewer than ten unused pieces remained ahead of the cursor. */
  function GetNextPiece(reg: Registry, id: PlayerId, now: int, refill: seq<ServerPiece>)
    : (r: Outcome<NextPiece>)
    requires |refill| == RefillBatch
    ensures r.reg.players.Keys == reg.players.Keys
    ensures id !in reg.players ==> r == Outcome(reg, Err(NotFound))
    ensures id in reg.players && reg.players[id].status != Playing ==> r == Outcome(reg, Err(NotStarted))
    ensures id in reg.players && reg.players[id].status == Playing ==>
              var a := Advance(reg.players[id], now, refill);
              r == Outcome(Update(reg, id, a.0), a.1)
  {
    if id !in reg.players then Outcome(reg, Err(NotFound))
    else
      var p := reg.players[id];
      if p.status != Playing then Outcome(reg, Err(NotStarted))
      else
        var (q, result) := Advance(p, now, refill);
        Outcome(Update(reg, id, q), result)
  }

  /** One advance of a playing player's stream: the timing checks first; a failure keeps the
      stream where it is and flags the player, a success moves one piece on, re-stamps the
      timer and tops the sequence up when the look-ahead window runs short. */
  function Advance(p: Player, now: int, refill: seq<ServerPiece>): (a: (Player, Result<NextPiece, Error>))
    requires |refill| == RefillBatch
    ensures var q := a.0;
            && (a.1.Err? ==> q.pieceIndex == p.pieceIndex && q.pieceSequence == p.pieceSequence
                             && q.cheatingDetected)
            && (a.1.Ok? ==>
                  && q.pieceIndex == p.pieceIndex + 1
                  && q.currentPieceStartTime == now
                  && p.pieceSequence <= q.pieceSequence
                  && (|q.pieceSequence| == |p.pieceSequence| || q.pieceSequence == p.pieceSequence + refill)
                  && (p.pieceIndex + VisibleWindow < |p.pieceSequence| ==>
                        q.pieceIndex + VisibleWindow < |q.pieceSequence|)
                  && a.1 == Ok(Served(q)))
  {
    var t := Timing(p, now);
    Proceed(t.0, t.1, now, refill)
  }

  /** The stream step after the timing checks left the record at `p1` with `failure`. */
  function Proceed(p1: Player, failure: Option<Error>, now: int, refill: seq<ServerPiece>)
    : (a: (Player, Result<NextPiece, Error>))
    requires |refill| == RefillBatch
    ensures failure.Some? ==> a == (p1, Err(failure.value))
    ensures failure.None? ==>
              var q := a.0;
              && q == p1.(pieceIndex := q.pieceIndex, pieceSequence := q.pieceSequence,
                          currentPieceStartTime := now)
              && q.pieceIndex == p1.pieceIndex + 1
              && p1.pieceSequence <= q.pieceSequence
              && (|q.pieceSequence| == |p1.pieceSequence| || q.pieceSequence == p1.pieceSequence + refill)
              && (p1.pieceIndex + VisibleWindow < |p1.pieceSequence| ==>
                    q.pieceIndex + VisibleWindow < |q.pieceSequence|)
              && a.1 == Ok(Served(q))
  {
    if failure.Some? then (p1, Err(failure.value))
    else
      var index := p1.pieceIndex + 1;
      var sequence := if index + VisibleWindow >= |p1.pieceSequence| then p1.pieceSequence + refill
                      else p1.pieceSequence;
      var q := p1.(pieceIndex := index, pieceSequence := sequence, currentPieceStartTime := now);
      (q, Ok(Served(q)))
  }

  /** The answer to a piece request once the stream stands at `q`: the piece at the index,
      the one after it, and the tier of the current score. */
  function Served(q: Player): NextPiece
  {
    var d := Difficulty.DifficultyByScore(q.currentScore);
    NextPiece(At(q.pieceSequence, q.pieceIndex), At(q.pieceSequence, q.pieceIndex + 1), q.pieceIndex,
              d.interval, d.level, d.name)
  }

  /** Under the window rule, an advance always finds both pieces and keeps the rule. */
  lemma NextPieceWithinWindow(reg: Registry, id: PlayerId, now: int, refill: seq<ServerPiece>)
    requires Inv(reg) && |refill| == RefillBatch
    ensures var r := GetNextPiece(reg, id, now, refill);
            && Inv(r.reg)
            && (r.result.Ok? ==> r.result.value.current.Some? && r.result.value.next.Some?)
  {
    var r := GetNextPiece(reg, id, now, refill);
    if id in reg.players && reg.players[id].status == Playing {
      UpdatePreservesInv(reg, id, r.reg.players[id]);
    }
  }

  /** The eighth violation in a row from a clean counter is declared cheating; seven leave
      the counter at seven and the game going. */
  lemma EighthViolationIsFatal(p: Player, now: int)
    requires p.speedViolations == 14 && p.pauseCount <= 10 && !p.isPaused
    requires now - p.currentPieceStartTime > Difficulty.MaxPauseTime
    ensures Timing(p, now).1 == Some(SpeedCheat)
    ensures Timing(p, now).0.cheatingDetected
  {
  }

  /** A single accepted advance between violations delays escalation by half a unit. */
  lemma AcceptedAdvanceDecays(p: Player, now: int)
    requires p.speedViolations > 0 && Elapsed(p, now) <= Difficulty.MaxPauseTime
    ensures Timing(p, now).0.speedViolations == p.speedViolations - 1
    ensures Timing(p, now).1.None?
  {
  }

  /** A slow advance under the pause limit is accepted, like an on-time one. */
  lemma SlowAdvanceAccepted(p: Player, now: int)
    requires var e := Elapsed(p, now);
             Difficulty.ExpectedFallTime(p.currentScore).max < e < Difficulty.MaxPauseTime
    ensures Timing(p, now).1.None?
    ensures Timing(p, now).0.speedViolations < p.speedViolations || p.speedViolations == 0
  {
  }

  /** While paused, a piece request is never charged any time. */
  lemma PausedRequestIsFree(p: Player, now: int)
    requires p.isPaused
    ensures Timing(p, now).1.None?
    ensures Timing(p, now).0.currentPieceStartTime == now
  {
  }

  datatype Ack = Ack

  function PauseGame(reg: Registry, id: PlayerId, now: int): (r: Outcome<Ack>)
    ensures id !in reg.players ==> r == Outcome(reg, Err(NotFound))
    ensures r.result.Ok? <==> id in reg.players && reg.players[id].status == Playing &&
                              !reg.players[id].isPaused
    ensures r.result.Err? ==> r.reg == reg
    ensures r.result.Ok? ==>
              r.reg == Update(reg, id, reg.players[id].(isPaused := true, pauseStartTime := Some(now)))
  {
    if id !in reg.players then Outcome(reg, Err(NotFound))
    else
      var p := reg.players[id];
      if p.status != Playing then Outcome(reg, Err(NotStarted))
      else if p.isPaused then Outcome(reg, Err(AlreadyPaused))
      else Outcome(Update(reg, id, p.(isPaused := true, pauseStartTime := Some(now))), Ok(Ack))
  }

  /** Resuming needs only the paused flag, whatever the status. The piece timer moves forward
      by the length of the pause (an absent pause start reads as 0, as `null` does). */
  function ResumeGame(reg: Registry, id: PlayerId, now: int): (r: Outcome<Ack>)
    ensures r.reg.players.Keys == reg.players.Keys
    ensures id !in reg.players ==> r == Outcome(reg, Err(NotFound))
    ensures r.result.Ok? <==> id in reg.players && reg.players[id].isPaused
    ensures r.result.Err? ==> r.reg == reg
    ensures r.result.Ok? ==>
              var p := reg.players[id];
              var q := r.reg.players[id];
              && r.reg == Update(reg, id, q)
              && q.currentPieceStartTime - p.currentPieceStartTime == now - p.pauseStartTime.GetOr(0)
              && q == p.(isPaused := false, pauseStartTime := None,
                         currentPieceStartTime := q.currentPieceStartTime)
  {
    if id !in reg.players then Outcome(reg, Err(NotFound))
    else
      var p := reg.players[id];
      if !p.isPaused then Outcome(reg, Err(NotPaused))
      else
        var pauseDuration := now - p.pauseStartTime.GetOr(0);
        Outcome(Update(reg, id, p.(currentPieceStartTime := p.currentPieceStartTime + pauseDuration,
                                   isPaused := false, pauseStartTime := None)), Ok(Ack))
  }

  /** Pausing at `t0` and resuming at `t1` takes the pause out of the time charged to the
      current piece: a request at `t` after the resume is charged `t - start - (t1 - t0)`. */
  lemma PauseExcludedFromTiming(reg: Registry, id: PlayerId, t0: int, t1: int, t: int)
    requires PauseGame(reg, id, t0).result.Ok?
    ensures var reg1 := PauseGame(reg, id, t0).reg;
            var r2 := ResumeGame(reg1, id, t1);
            && r2.result.Ok?
            && Elapsed(r2.reg.players[id], t) ==
               t - reg.players[id].currentPieceStartTime - (t1 - t0)
  {
  }

  lemma PauseResumePreserveInv(reg: Registry, id: PlayerId, now: int)
    requires Inv(reg)
    ensures Inv(PauseGame(reg, id, now).reg) && Inv(ResumeGame(reg, id, now).reg)
  {
    if PauseGame(reg, id, now).result.Ok? {
      UpdatePreservesInv(reg, id, PauseGame(reg, id, now).reg.players[id]);
    }
    if ResumeGame(reg, id, now).result.Ok? {
      UpdatePreservesInv(reg, id, ResumeGame(reg, id, now).reg.players[id]);
    }
  }

  /** Ends the run whatever its status, and appends it to the history. A missing start time
      reads as 0 in the duration. */
  function EndGame(reg: Registry, id: PlayerId, now: int): (r: Outcome<Player>)
    ensures r.reg.players.Keys == reg.players.Keys
    ensures id !in reg.players ==> r == Outcome(reg, Err(NotFound))
    ensures id in reg.players ==>
              var p := reg.players[id];
              var q := r.reg.players[id];
              && r.result == Ok(q)
              && r.reg == Update(reg, id, q)
              && q.status == Finished && q.endTime == Some(now)
              && q.history == p.history + [Run(p.currentScore, p.startTime, now,
                                               now - p.startTime.GetOr(0))]
              && q == p.(status := Finished, endTime := Some(now), history := q.history)
  {
    if id !in reg.players then Outcome(reg, Err(NotFound))
    else
      var p := reg.players[id];
      var run := Run(p.currentScore, p.startTime, now, now - p.startTime.GetOr(0));
      var q := p.(status := Finished, endTime := Some(now), history := p.history + [run]);
      Outcome(Update(reg, id, q), Ok(q))
  }

  lemma EndPreservesInv(reg: Registry, id: PlayerId, now: int)
    requires Inv(reg)
    ensures Inv(EndGame(reg, id, now).reg)
  {
    if id in reg.players {
      UpdatePreservesInv(reg, id, EndGame(reg, id, now).reg.players[id]);
    }
  }
}

=== FILE: validation.dfy ===
/** The server's checks on what a client reports: the shape and contents of a board,
    a state update, a line clear, and the piece the client claims to be placing. */
module Validation {
  import opened Common
  import opened Players
  import Board
  import LineClear
  import Session

  /** A cell value the server accepts: empty, or one of the seven piece types. */
  predicate CellAllowed(v: int)
  {
    v == 0 || 1 <= v <= 7
  }

  /** Twenty rows and a first row of ten cells; the other rows' widths are not looked at. */
  predicate SizeOk(b: Board.Grid)
  {
    |b| == Board.Rows && |b[0]| == Board.Cols
  }

  /** Every cell inside the 20 x 10 window that exists holds an allowed value.
      A cell missing from a short row is `undefined` and passes both comparisons. */
  predicate CellsOk(b: Board.Grid)
  {
    forall y, x :: 0 <= y < |b| && y < Board.Rows && 0 <= x < Board.Cols && x < |b[y]| ==>
      CellAllowed(b[y][x])
  }

  predicate BoardAccepted(b: Board.Grid)
  {
    SizeOk(b) && CellsOk(b)
  }

  datatype BoardVerdict = BoardOk | BadSize | BadCell(y: nat, x: nat)

  /** Checks a reported board, row by row, and names the first offending cell. */
  method ValidateBoardState(b: Board.Grid) returns (v: BoardVerdict)
    ensures v.BoardOk? <==> BoardAccepted(b)
    ensures v.BadSize? <==> !SizeOk(b)
    ensures v.BadCell? ==>
              && SizeOk(b) && v.y < Board.Rows && v.x < Board.Cols && v.x < |b[v.y]|
              && !CellAllowed(b[v.y][v.x])
              && (forall y, x :: 0 <= y < v.y && 0 <= x < Board.Cols && x < |b[y]| ==> CellAllowed(b[y][x]))
              && (forall x :: 0 <= x < v.x ==> CellAllowed(b[v.y][x]))
  {
    if |b| != Board.Rows || |b[0]| != Board.Cols {
      return BadSize;
    }
    var y := 0;
    while y < Board.Rows
      invariant 0 <= y <= Board.Rows
      invariant forall y', x :: 0 <= y' < y && 0 <= x < Board.Cols && x < |b[y']| ==> CellAllowed(b[y'][x])
    {
      var x := 0;
      while x < Board.Cols
        invariant 0 <= x <= Board.Cols
        invariant forall x' :: 0 <= x' < x && x' < |b[y]| ==> CellAllowed(b[y][x'])
      {
        if x < |b[y]| && !CellAllowed(b[y][x]) {
          return BadCell(y, x);
        }
        x := x + 1;
      }
      y := y + 1;
    }
    return BoardOk;
  }

  lemma InitBoardAccepted()
    ensures BoardAccepted(Board.InitBoard())
  {
  }

  /** The board the server keeps for a player has passed the board check, if it has one. */
  ghost predicate StoredBoardSane(p: Player)
  {
    p.lastBoardState.Some? ==> BoardAccepted(p.lastBoardState.value)
  }

  /** Takes a client's reported state. A bad board is cheating; when the score moved, the
      block-count comparison reads twenty rows of the old board and fails on a shorter one;
      otherwise the report is stored as given and the best score follows the current one. */
  function UpdateGameState(reg: Registry, id: PlayerId, gs: ClientState): (r: Outcome<Player>)
    ensures r.reg.players.Keys == reg.players.Keys
    ensures id !in reg.players ==> r == Outcome(reg, Err(NotFound))
    ensures id in reg.players ==>
              var p := reg.players[id];
              var checked := p.lastBoardState.Some? && gs.board.Some?;
              && (r.result == Err(BoardCheat) <==> checked && !BoardAccepted(gs.board.value))
              && (r.result == Err(BoardCheat) ==> r.reg == Update(reg, id, p.(cheatingDetected := true)))
              && (r.result == Err(TypeFault) <==> checked && BoardAccepted(gs.board.value) &&
                                                  gs.score != p.currentScore &&
                                                  |p.lastBoardState.value| < Board.Rows)
              && (r.result == Err(TypeFault) ==> r.reg == reg)
              && (r.result.Err? ==> r.result == Err(BoardCheat) || r.result == Err(TypeFault))
              && (r.result.Ok? ==>
                    var q := r.result.value;
                    && r.reg == Update(reg, id, q)
                    && q.gameState == Some(gs) && q.currentScore == gs.score
                    && (checked ==> BoardAccepted(gs.board.value))
                    && q.lastBoardState == (if gs.board.Some? then gs.board else p.lastBoardState)
                    && q.highestScore >= p.highestScore && q.highestScore >= q.currentScore
                    && (q.highestScore == p.highestScore || q.highestScore == q.currentScore)
                    && q == p.(gameState := q.gameState, currentScore := q.currentScore,
                               lastBoardState := q.lastBoardState, highestScore := q.highestScore))
  {
    if id !in reg.players then Outcome(reg, Err(NotFound))
    else
      var p := reg.players[id];
      if p.lastBoardState.Some? && gs.board.Some? && !BoardAccepted(gs.board.value) then
        Outcome(Update(reg, id, p.(cheatingDetected := true)), Err(BoardCheat))
      else if p.lastBoardState.Some? && gs.board.Some? && gs.score != p.currentScore
              && |p.lastBoardState.value| < Board.Rows then
        Outcome(reg, Err(TypeFault))
      else
        var q := p.(lastBoardState := if gs.board.Some? then gs.board else p.lastBoardState,
                    gameState := Some(gs), currentScore := gs.score,
                    highestScore := if gs.score > p.highestScore then gs.score else p.highestScore);
        Outcome(Update(reg, id, q), Ok(q))
  }

  /** Once a run has started, every board the server stores has been checked: starting stores
      the empty board, and an update with a board replaces a checked one only by a checked one. */
  lemma StoredBoardStaysSane(reg: Registry, id: PlayerId, gs: ClientState, now: int,
                             batch: seq<ServerPiece>)
    requires id in reg.players && |batch| == Session.InitialBatch
    ensures StoredBoardSane(Session.StartGame(reg, id, now, batch).reg.players[id])
    ensures StoredBoardSane(reg.players[id]) && reg.players[id].lastBoardState.Some? ==>
              var r := UpdateGameState(reg, id, gs);
              StoredBoardSane(r.reg.players[id]) && r.result != Err(TypeFault)
  {
    var started := Session.StartGame(reg, id, now, batch).reg.players[id];
    assert started.lastBoardState == Some(Board.InitBoard());
    InitBoardAccepted();
    var p := reg.players[id];
    if StoredBoardSane(p) && p.lastBoardState.Some? {
      var r := UpdateGameState(reg, id, gs);
      assert |p.lastBoardState.value| == Board.Rows;
      if r.result.Ok? {
        assert r.reg.players[id] == r.result.value;
      } else {
        assert r.result == Err(BoardCheat);
        assert r.reg.players[id].lastBoardState == p.lastBoardState;
      }
    }
  }

  lemma UpdateGameStatePreservesInv(reg: Registry, id: PlayerId, gs: ClientState)
    requires Inv(reg)
    ensures Inv(UpdateGameState(reg, id, gs).reg)
  {
    var r := UpdateGameState(reg, id, gs);
    if id in reg.players && r.reg != reg {
      Players.UpdatePreservesInv(reg, id, r.reg.players[id]);
    }
  }

  /** The server's own points table for `n` lines at once; past four it has no entry and
      `|| 0` counts it as 0. It agrees with the client's table for up to four lines. */
  function LinePoints(n: nat): (s: nat)
    ensures n <= 4 ==> s == LineClear.Points(n)
    ensures n > 4 ==> s == 0
  {
    if n <= 4 then [0, 100, 300, 500, 800][n] else 0
  }

  /** The level the server multiplies by: the last reported one, or 1 when none was reported
      or it was 0. */
  function LevelOf(gs: Option<ClientState>): (l: int)
    ensures l != 0
    ensures gs.Some? && gs.value.level != 0 ==> l == gs.value.level
    ensures gs.None? || gs.value.level == 0 ==> l == 1
  {
    if gs.None? || gs.value.level == 0 then 1 else gs.value.level
  }

  datatype ClearVerdict =
    | ClearValid
    | UnknownPlayer
    | MissingBoard
    | ClearFault
    | CountMismatch(reported: int, actual: nat)
    | ScoreMismatch(expected: int, reportedScore: int)

  /** Checks a reported line clear against the board before it: the number of full rows among
      the first twenty must be the one reported, and the player's score must have risen from
      `scoreBefore` by the points for that many lines at the last reported level. */
  function ValidateLineClear(reg: Registry, id: PlayerId, before: Option<Board.Grid>, after: Option<Board.Grid>,
                             linesCleared: int, scoreBefore: int): (v: ClearVerdict)
    ensures v == ClearValid <==>
              && id in reg.players && before.Some? && after.Some? && |before.value| >= Board.Rows
              && linesCleared == LineClear.CountFull(before.value[..Board.Rows])
              && reg.players[id].currentScore ==
                 scoreBefore + LinePoints(linesCleared) * LevelOf(reg.players[id].gameState)
    ensures v.CountMismatch? ==> v.reported != v.actual && v.actual <= Board.Rows
    ensures v == ClearFault <==> id in reg.players && before.Some? && after.Some? &&
                                 |before.value| < Board.Rows
  {
    if id !in reg.players then UnknownPlayer
    else if before.None? || after.None? then MissingBoard
    else if |before.value| < Board.Rows then ClearFault
    else
      var full := LineClear.CountFull(before.value[..Board.Rows]);
      if linesCleared != full then CountMismatch(linesCleared, full)
      else
        var p := reg.players[id];
        var expected := scoreBefore + LinePoints(full) * LevelOf(p.gameState);
        if p.currentScore != expected then ScoreMismatch(expected, p.currentScore)
        else ClearValid
  }

  /** The client's score after a clear is the server's expected score for that clear. */
  lemma ClearGain(st: Board.Stats, n: nat)
    requires n <= 4
    ensures LineClear.ApplyClear(st, 1000, n).0.score == st.score + LinePoints(n) * st.level
  {
    if n == 0 {
      assert LinePoints(n) * st.level == 0;
    }
  }

  /** An honest client passes: clearing the full rows of a 20-row board with the client's own
      scoring, at the level the server last saw, is accepted. */
  lemma HonestClearValidates(reg: Registry, id: PlayerId, before: Board.Grid, after: Board.Grid, st: Board.Stats)
    requires id in reg.players && |before| == Board.Rows
    requires reg.players[id].gameState.Some? && reg.players[id].gameState.value.level == st.level
    requires st.level >= 1
    requires LineClear.CountFull(before) <= 4
    requires reg.players[id].currentScore ==
             LineClear.ApplyClear(st, 1000, LineClear.CountFull(before)).0.score
    ensures ValidateLineClear(reg, id, Some(before), Some(after), LineClear.CountFull(before), st.score)
            == ClearValid
  {
    var n := LineClear.CountFull(before);
    var p := reg.players[id];
    assert before[..Board.Rows] == before;
    assert LevelOf(p.gameState) == st.level;
    ClearGain(st, n);
    ClearAccepted(reg, id, before, after, n, st.score);
  }

  /** A report whose count and score match the server's accounting is accepted. */
  lemma ClearAccepted(reg: Registry, id: PlayerId, before: Board.Grid, after: Board.Grid, n: nat, scoreBefore: int)
    requires id in reg.players && |before| >= Board.Rows
    requires n == LineClear.CountFull(before[..Board.Rows])
    requires reg.players[id].currentScore == scoreBefore + LinePoints(n) * LevelOf(reg.players[id].gameState)
    ensures ValidateLineClear(reg, id, Some(before), Some(after), n, scoreBefore) == ClearValid
  {
  }

  /** Whether full row `y` of `old` no longer shows any block at the same height in `new`. */
  predicate Vanished(before: Board.Grid, after: Board.Grid, y: nat)
    requires y < |before|
  {
    LineClear.RowFull(before[y]) && !(y < |after| && exists x :: 0 <= x < |after[y]| && after[y][x] != 0)
  }

  /** Rows below `k` counted by `Vanished`. */
  function CountVanished(before: Board.Grid, after: Board.Grid, k: nat): (n: nat)
    requires k <= |before|
    ensures n <= LineClear.CountFull(before[..k])
  {
    if k == 0 then 0
    else
      var rest := CountVanished(before, after, k - 1);
      CountVanishedStep(before, after, k, rest);
      rest + (if Vanished(before, after, k - 1) then 1 else 0)
  }

  /** Counting one more row keeps the count within the full rows: a vanished row is full. */
  lemma CountVanishedStep(before: Board.Grid, after: Board.Grid, k: nat, rest: nat)
    requires 0 < k <= |before| && rest <= LineClear.CountFull(before[..k - 1])
    ensures rest + (if Vanished(before, after, k - 1) then 1 else 0) <= LineClear.CountFull(before[..k])
  {
    var rows := before[..k];
    assert rows[..k - 1] == before[..k - 1] && rows[k - 1] == before[k - 1];
    CountFullSnoc(rows);
  }

  /** The rows below `k` that `Vanished` picks out. */
  ghost function VanishedRows(before: Board.Grid, after: Board.Grid, k: nat): set<nat>
    requires k <= |before|
  {
    set y: nat | y < k && Vanished(before, after, y)
  }

  /** Extending the range by one row adds that row exactly when it vanished. */
  lemma VanishedRowsStep(before: Board.Grid, after: Board.Grid, k: nat)
    requires 0 < k <= |before|
    ensures |VanishedRows(before, after, k)| ==
            |VanishedRows(before, after, k - 1)| + (if Vanished(before, after, k - 1) then 1 else 0)
  {
    var prev := VanishedRows(before, after, k - 1);
    if Vanished(before, after, k - 1) {
      assert VanishedRows(before, after, k) == prev + {k - 1};
      assert k - 1 !in prev;
    } else {
      assert VanishedRows(before, after, k) == prev;
    }
  }

  /** The count is the number of vanished rows, each row counted once. */
  lemma {:induction false} CountVanishedIsRowCount(before: Board.Grid, after: Board.Grid, k: nat)
    requires k <= |before|
    ensures CountVanished(before, after, k) == |VanishedRows(before, after, k)|
  {
    if k == 0 {
      assert VanishedRows(before, after, k) == {};
    } else {
      CountVanishedIsRowCount(before, after, k - 1);
      VanishedRowsStep(before, after, k);
    }
  }

  lemma {:induction false} CountFullSnoc(b: Board.Grid)
    requires |b| > 0
    ensures LineClear.CountFull(b) ==
            LineClear.CountFull(b[..|b| - 1]) + (if LineClear.RowFull(b[|b| - 1]) then 1 else 0)
  {
    if |b| > 1 {
      assert b[1..][..|b[1..]| - 1] == b[..|b| - 1][1..];
      CountFullSnoc(b[1..]);
    }
  }

  /** `calculateLinesCleared`: the full rows of the before board whose height is empty in the after
      one. A missing board gives 0; an before board of fewer than twenty rows fails. */
  function CalculateLinesCleared(before: Option<Board.Grid>, after: Option<Board.Grid>): (r: Result<nat, Error>)
    ensures before.None? || after.None? ==> r == Ok(0)
    ensures r.Err? <==> before.Some? && after.Some? && |before.value| < Board.Rows
    ensures r.Ok? && before.Some? && after.Some? ==> r.value <= LineClear.CountFull(before.value[..Board.Rows])
    ensures r.Ok? && before.Some? && after.Some? ==>
              r.value == |VanishedRows(before.value, after.value, Board.Rows)|
  {
    if before.None? || after.None? then Ok(0)
    else if |before.value| < Board.Rows then Err(TypeFault)
    else
      CountVanishedIsRowCount(before.value, after.value, Board.Rows);
      Ok(CountVanished(before.value, after.value, Board.Rows))
  }

  datatype PieceVerdict = PieceValid | NoPlayer | AlreadyCheating | SequenceFault | IdMismatch | KindMismatch

  /** Compares the piece a client names with the one at the server's cursor; a wrong id or
      kind marks the player as cheating. A player who never started a game has no piece
      sequence at all, and indexing it raises a TypeError. */
  function ValidateCurrentPiece(reg: Registry, id: PlayerId, pieceId: string, kind: Board.Kind)
    : (r: Outcome<PieceVerdict>)
    ensures r.reg.players.Keys == reg.players.Keys
    ensures r.result.Err? <==>
              id in reg.players && !reg.players[id].cheatingDetected && |reg.players[id].pieceSequence| == 0
    ensures r.result.Err? ==> r == Outcome(reg, Err(TypeFault))
    ensures r.result.Ok? ==>
              (r.result.value == PieceValid <==>
                 && id in reg.players && !reg.players[id].cheatingDetected
                 && reg.players[id].pieceIndex < |reg.players[id].pieceSequence|
                 && reg.players[id].pieceSequence[reg.players[id].pieceIndex] == ServerPiece(kind, pieceId))
    ensures r.result.Ok? ==> (r.result.value in {IdMismatch, KindMismatch} <==> r.reg != reg)
    ensures r.reg != reg ==> id in reg.players && r.reg == Update(reg, id, reg.players[id].(cheatingDetected := true))
  {
    if id !in reg.players then Outcome(reg, Ok(NoPlayer))
    else
      var p := reg.players[id];
      if p.cheatingDetected then Outcome(reg, Ok(AlreadyCheating))
      else if |p.pieceSequence| == 0 then Outcome(reg, Err(TypeFault))
      else if p.pieceIndex >= |p.pieceSequence| then Outcome(reg, Ok(SequenceFault))
      else
        var expected := p.pieceSequence[p.pieceIndex];
        if expected.id != pieceId then
          Outcome(Update(reg, id, p.(cheatingDetected := true)), Ok(IdMismatch))
        else if expected.kind != kind then
          Outcome(Update(reg, id, p.(cheatingDetected := true)), Ok(KindMismatch))
        else Outcome(reg, Ok(PieceValid))
  }

  /** Marking a player as cheating keeps the registry invariant. */
  lemma ValidateCurrentPiecePreservesInv(reg: Registry, id: PlayerId, pieceId: string, kind: Board.Kind)
    requires Inv(reg)
    ensures Inv(ValidateCurrentPiece(reg, id, pieceId, kind).reg)
  {
    if id in reg.players {
      UpdatePreservesInv(reg, id, reg.players[id].(cheatingDetected := true));
    }
  }

  /** The piece `getNextPiece` has just handed out is the one the cursor check accepts. */
  lemma ServedPieceValidates(reg: Registry, id: PlayerId, now: int, refill: seq<ServerPiece>)
    requires |refill| == Session.RefillBatch
    requires var r := Session.GetNextPiece(reg, id, now, refill);
             r.result.Ok? && r.result.value.current.Some?
    requires !reg.players[id].cheatingDetected
    ensures var r := Session.GetNextPiece(reg, id, now, refill);
            var piece := r.result.value.current.value;
            ValidateCurrentPiece(r.reg, id, piece.id, piece.kind).result == Ok(PieceValid)
  {
  }
}
